=== FILE: README.md ===
# okaziyo-server, modelled in Dafny

A model of the decision logic of a listings backend: jobs, scholarships,
items, categories, multijobs posts and users, each served by an Express
router over a Mongoose collection. The model covers:

- **the document store**: a collection is the sequence of its documents
  in store order under distinct ids. `find(filter).sort(key)` with
  `skip`/`limit` becomes a filter, then a stable sort, then a window
  (`Store`).
- **pagination**: `parseInt(req.query.pageNo || "0")` follows the
  ECMAScript `parseInt` rules, and an unparsable value is `None`. A
  positive page number selects `limit = PAGE_SIZE` documents after
  `skip = PAGE_SIZE * (pageNo - 1)`. The page count is always
  `Math.ceil(count / PAGE_SIZE)` over the whole collection (`Pagination`,
  `JsText`).
- **the active/archived split** of jobs and scholarships, against a
  `yesterday` cutoff fixed when the router module loads (`Deadlines`,
  `PostingRoutes`).
- **create-time validation**: the handlers' required-field checks, the
  schemas' required, default, length and unique constraints, and the
  pre-validate slug hooks (`Postings`, `Items`, `Categories`,
  `Multijobs`).
- **the role gate in front of every route** (`Access`, `Handlers`).
- **the scholarship upload middleware**: the MIME filter, the size limit
  and the stored name. Also the reverse step the delete handlers take,
  from a location back to its key (`Upload`).

Parameters stand in for what the code takes from outside:

- the clock (`now`, the router's load time);
- new ObjectIds (`newId`);
- `uuidv4` (`uuid`);
- `slugify`;
- the string-to-Date cast (`castDate`);
- the signed-in caller;
- the files an upload middleware stored.

Every request that fails, whether at a gate, in the upload middleware or in a handler, is an `Err`:

- `Forbidden` for a closed gate;
- `Rejected(msg)` for the handler's own message;
- `ValidationFailed(paths)` for schema validation;
- `DuplicateKey(path)` for a unique index;
- `FileTooLarge` for the upload limit, which the middleware hands to Express's error handler;
- `TooManyFiles(field)` for the items upload's cap of 12 files;
- `TypeError(property)` for a property read on null or undefined.

## Model

| member | source | states |
|---|---|---|
| Deadlines.Yesterday | routes/api/jobs.js:14-15 | the cutoff is the load time minus 86,400,000 ms |
| PostingRoutes.Load | routes/api/scholarships.js:14-15 | a router carries the cutoff fixed at load time, 24 h before it; no handler reads the clock again |
| PostingRoutes.ListAll | routes/api/jobs.js:24-40 | GET / answers every posting, a permutation of the collection sorted by createdAt descending |
| PostingRoutes.Newest | routes/api/jobs.js:48-53 | a filtered query answers exactly the documents that satisfy the filter, sorted by createdAt descending, each as often as in the store |
| PostingRoutes.ActiveListing | routes/api/jobs.js:45-61 | /activeJobs and /activeScholarships answer exactly the postings whose deadline is strictly after the cutoff, newest first |
| PostingRoutes.ByCategory | routes/api/jobs.js:67-108 | the page count is ceil(all postings / 12) whatever the filter; with pageNo > 0 the answer is page pageNo (at most 12) of the category's active postings, newest first; otherwise the id is ignored and every active posting is answered |
| PostingRoutes.BySubCategory | routes/api/scholarships.js:112-153 | the same as the category route, on sub_category |
| PostingRoutes.Archives | routes/api/jobs.js:159-199 | a page holds only postings with deadline < cutoff; the unpaginated archive is exactly the postings with deadline <= cutoff; the page count is ceil(all / 12) |
| PostingRoutes.PageKeepsOrder | routes/api/jobs.js:75-86 | a page of a sorted listing is sorted and is drawn from the listing |
| PostingRoutes.ActiveAndArchivePartition | routes/api/jobs.js:179 | the active listing and the unpaginated archive together hold every posting exactly once |
| PostingRoutes.DueAtCutoff | routes/api/jobs.js:172-179 | a posting due exactly at the cutoff is in no active listing and on no archive page, yet is in the unpaginated archive |
| PostingRoutes.CategoryPagesCover | routes/api/scholarships.js:66-107 | every active posting of a category is on some page `?pageNo=n` with n within the category's page count |
| PostingRoutes.Create | routes/api/jobs.js:204-246 | checks run in order: upload error, role gate (Admin for jobs, Creator or Admin for scholarships), the five required fields ("There are missing info!", and that message only when one is missing), an image present, schema validation (failing exactly when the slug is empty, the deadline does not cast or sub_category is empty), the _id index, the slug index, and otherwise success; a success appends exactly one posting carrying the form's fields, the default sub-category when none is given, the cast deadline, the image location and the slug made from title and brand, and keeps ids and slugs unique |
| PostingRoutes.SameTitleAndBrandCollide | models/Job.js:33-37 | once a posting is saved, another create with the same title and brand that passes the gate, the required-info check and the schema fails with a duplicate key on `slug` |
| PostingRoutes.NonImageIsNotSaved | routes/api/scholarships.js:203-222 | a file the filter skips leaves no `req.file`, and the handler fails reading its location |
| PostingRoutes.Update | routes/api/jobs.js:251-264 | only Creator or Admin; an update that gives the posting another posting's slug fails with a duplicate key on `slug` (models/Job.js:36) and any other update succeeds; the posting under the id is patched and updatedAt set, every other posting is unchanged, and slugs stay unique; null when the id is unknown |
| PostingRoutes.UpdateToTakenSlugRefused | models/Scholarship.js:33-37 | an update that names another posting's slug is refused with a duplicate key on `slug` |
| PostingRoutes.UpdateKeepsSlug | routes/api/scholarships.js:252-265 | an update that does not name the slug keeps it, even when it renames the title or brand |
| PostingRoutes.Delete | routes/api/scholarships.js:270-314 | only Creator or Admin; an unknown id fails with "Job is not found!" or "Scholarship is not found!"; a posting without an image fails on `split`; a posting with an image is always removed, exactly that posting, and the image key is the last `/`-piece of its location |
| Postings.PreValidate | models/Job.js:61-68 | with a truthy title and brand the slug is slugify(title + " at " + brand); otherwise the slug is untouched; no other field changes |
| Postings.Validate | models/Scholarship.js:11-59 | fails exactly when title, brand, markdown, slug, deadline or sub_category is missing, listing those paths in schema order; on success category and sub_category take the per-collection default ids when absent and both timestamps are now |
| Postings.SlugNeedsTitleAndBrand | models/Job.js:61-66 | a posting lacking title or brand has no slug and fails validation on `slug` |
| Postings.EmptyPatchTouchesOnlyUpdatedAt | routes/api/jobs.js:255 | an empty request body changes nothing but updatedAt |
| Postings.ApplyPatchIdempotent | routes/api/jobs.js:255 | sending the same body twice leaves the posting as once, up to updatedAt |
| Postings.ApplyPatch | routes/api/jobs.js:255-256 | every field the patch names replaces the stored one and every field it leaves out is kept; the slug changes only when named, createdAt is kept and updatedAt becomes now |
| Pagination.PageNo | routes/api/jobs.js:72 | a missing or empty pageNo parses as 0 |
| JsText.ParseIntShowNat | routes/api/items.js:49 | the decimal text of n, followed by anything that is not a digit, parses as n; after "0" the follower must also not be `x` or `X`, which would start a hexadecimal number |
| JsText.ParseIntSkipsSpace | routes/api/items.js:49 | leading ECMAScript white space, including the Unicode space separators, does not change what parses |
| JsText.ParseIntNegative | routes/api/items.js:49 | "-n" parses as -n, a page number that takes the unpaginated branch |
| JsText.ParseIntNaN | routes/api/items.js:49 | text that starts with neither a digit, a sign nor ECMAScript white space parses as NaN |
| Pagination.PageOf | routes/api/jobs.js:75-76 | a page holds at most PAGE_SIZE documents, the ones at positions PAGE_SIZE*(pageNo-1) onward |
| Pagination.TotalPages | routes/api/items.js:75 | the page count is the fewest pages of PAGE_SIZE that hold the count |
| Pagination.MissingPageNoIsUnpaginated | routes/api/jobs.js:72-81 | without a pageNo the unpaginated branch is taken |
| Pagination.DecimalPageNo | routes/api/jobs.js:72-82 | `?pageNo=n` for a positive n selects page n |
| Pagination.PageCover | routes/api/jobs.js:75-76 | position i of a listing is on page i / PAGE_SIZE + 1, which is within the page count |
| Pagination.PageBeyondLastIsEmpty | routes/api/items.js:47-63 | a page number past the page count answers no documents |
| Pagination.PagesBeforeLastAreFull | routes/api/items.js:52-53 | every page before the last holds exactly PAGE_SIZE documents, and the last is not empty |
| Pagination.HundredInTwelves | routes/api/jobs.js:71-76 | a worked example of the posting page size, not coverage beyond the general page lemmas: 100 postings make 9 pages of 12, the ninth holding the last 4 and the tenth empty |
| Pagination.TwentyFiveItems | routes/api/items.js:48-53 | a worked example of the items page size, not coverage beyond the general page lemmas: 25 items make 2 pages of 18 |
| Items.Paginate | routes/api/items.js:44-82 | the page count is ceil(all items / 18) whatever pageNo is; with pageNo > 0 at most 18 items, the page of the date_created-descending list; otherwise every item, newest first |
| Items.PageOfListing | routes/api/items.js:47-63 | a query that parses as a positive page n answers page n of the unpaginated listing, the items at 18*(n-1) onward |
| Items.ItemPagesCover | routes/api/items.js:47-75 | every item is on some page within the page count, and a page past the last is empty while reporting the same count |
| Items.SortByCreatedAt | routes/api/items.js:126-133 | sorting items on `createdAt`, a path the schema lacks, keeps store order |
| Items.ByCategory | routes/api/items.js:111-152 | with pageNo > 0 the answer is page pageNo (at most 12) of the category's items in store order; otherwise every item, unfiltered; the page count is ceil(all items / 12) |
| Items.BySubCategory | routes/api/items.js:157-198 | the same as the category route, on sub_category |
| Items.UnpaginatedIgnoresId | routes/api/items.js:125-136 | without a positive page number the category and sub-category routes answer the same for any id |
| Items.CollectPictures | routes/api/items.js:204-208 | the pictures are the stored files' locations, one per file, in upload order |
| Items.Create | routes/api/items.js:203-250 | more than 12 pictures is refused by the upload middleware before anything else; anonymous callers are refused; a request that is not multipart throws reading `req.files.length`; a falsy title, description, brand, price, category, sub_category or contactNumber gives "There are missing info!"; a contact number outside 10..13 characters fails validation on that path alone; otherwise the item is saved exactly when its id is free, carrying the form's fields, the pictures in upload order and date_created now |
| Items.ValidateItem | models/Item.js:8-54 | fails exactly on the missing required paths and a contactNumber outside 10..13 characters; price defaults to "0", date_created to now, category and sub_category to fixed ids |
| Items.ContactNumberBounds | models/Item.js:44-49 | with every other field present, validation succeeds exactly when the contact number has 10 to 13 characters |
| Items.MissingPriceDefaultsToZero | models/Item.js:21-25 | an item validated without a price is saved with price "0" |
| Items.Update | routes/api/items.js:256-269 | only Creator or Admin, who always succeed; the answer is the patched item, or null for an unknown id; every other item is unchanged |
| Categories.ListAll | routes/api/categories.js:13-28 | every category, sorted by date_created ascending, a permutation of the collection |
| Categories.GetOne | routes/api/categories.js:34-51 | only Creator or Admin; the category under the id, or null |
| Categories.Create | routes/api/categories.js:57-91 | only Admin; a falsy title or description gives "Please fill all the fields"; a taken title gives "Category already exists!" and only then; otherwise a taken id is a duplicate key on `_id` and a free one succeeds; a success adds exactly one category echoing the title, description and creator, and keeps titles unique |
| Categories.SameTitleRejected | routes/api/categories.js:66-67 | once a category is created, another create with the same title is refused with "Category already exists!" |
| Categories.ValidateCategory | models/Category.js:8-48 | succeeds exactly when the title, the description, and every sub-category entry's name and description are present; the category's and each entry's date_created default to now |
| Categories.EntryWithoutNameFails | models/Category.js:22-42 | an entry without a name fails validation on `sub_category.<k>.name` and nothing else |
| Categories.Update | routes/api/categories.js:96-109 | only Admin; an update that gives the category another category's title fails with a duplicate key on `title` (models/Category.js:12) and any other update succeeds; the answer is the patched category, or null; titles stay unique |
| Categories.Delete | routes/api/categories.js:116-134 | only Admin; an unknown id gives "Category is not found!"; a known id is always removed, exactly that category, and no response is sent |
| Multijobs.PreValidate | models/Multijobs.js:41-48 | a truthy title makes the slug slugify(title), with no brand part; otherwise the slug is untouched |
| Multijobs.ValidateMultijob | models/Multijobs.js:9-39 | fails exactly when title, markdown or slug is missing; on success both timestamps are now |
| Multijobs.NoTitleNoSlug | models/Multijobs.js:41-48 | without a title, validation fails on both title and slug |
| Multijobs.Create | routes/api/multijobs.js:52-83 | open to anyone; a falsy title or markdown gives "There are missing info!" and only then; a title whose slug is empty fails on `slug`; otherwise the post is saved unless its id or slug is taken, and the answer echoes the derived slug |
| Multijobs.SameTitleCollides | models/Multijobs.js:27-31 | two posts with the same title collide on the slug index |
| Multijobs.ListAll | routes/api/multijobs.js:11-26 | every post, sorted by createdAt descending |
| Multijobs.Update | routes/api/multijobs.js:88-101 | only Creator or Admin; an update that gives the post another post's slug fails with a duplicate key on `slug` (models/Multijobs.js:30) and any other update succeeds; the patched post, or null; slugs stay unique |
| Multijobs.Delete | routes/api/multijobs.js:106-124 | only Creator or Admin; an unknown id gives "Multijobs is not found!"; a known id is always removed, exactly that post, and no response is sent |
| Users.ListAll | routes/api/users.js:12-24 | open; every user, sorted by date_registered descending |
| Users.GetOne | routes/api/users.js:30-47 | only Admin; the user under the id, or null |
| Users.Update | routes/api/users.js:52-66 | only Admin; an update that gives the user another user's email fails with a duplicate key on `email` and any other update succeeds; the patched user, or null; every other user is unchanged and emails stay unique |
| Users.UpdateToTakenEmailRefused | routes/api/users.js:55-64 | an Admin's update that gives a user the email another user holds is refused with a duplicate key on `email` |
| Users.Delete | routes/api/users.js:72-92 | only Admin; an unknown id gives "User is not found!"; a known id is always removed, exactly that user, ids stay distinct, and the answer is "Deleted successfully!" |
| Upload.NormalisedName | routes/api/utils/scholarshipUpload.js:43 | the normalised name has the original's length, each space replaced by '-' and every other character lowercased; it holds no space and no uppercase letter |
| Upload.StoredName | routes/api/utils/scholarshipUpload.js:29-45 | the stored name is the uuid, '-', then the normalised name, one rule for the disk filename and the S3 key |
| Upload.SingleUpload | routes/api/utils/scholarshipUpload.js:13-54 | a file of an allowed type (image/jpeg, image/jpg, image/png) within 1,000,000 bytes is stored under its stored name; any other type is skipped without an error; an allowed file over the limit is an error |
| Upload.KeyOfLocationRecoversStoredName | routes/api/jobs.js:277 | when neither the uuid nor the file name holds a '/', the key the delete handler derives from the location is the key the upload stored |
| Store.FindById | routes/api/users.js:75-76 | the document under the id, or none exactly when no document has it |
| Store.RemoveById | routes/api/categories.js:122 | removal keeps exactly the documents with another id, in order |
| Store.RemoveByIdDropsOne | routes/api/users.js:78 | with distinct ids, removing a present id drops exactly one document and the id is gone |
| Store.UpdateById | routes/api/users.js:57 | the document under the id is patched; every other document and every id is unchanged |
| Store.UpdateKeepsUnique | models/Category.js:9-13 | an update whose new key collides with no other document keeps a unique index unique |
| Store.Where | routes/api/jobs.js:48 | a filter keeps exactly the documents that satisfy it |
| Store.WherePartition | routes/api/jobs.js:179 | a filter and its complement split a collection |
| Store.SortDesc | routes/api/jobs.js:51 | a descending sort is a permutation in non-increasing key order |
| Store.SortAsc | routes/api/categories.js:18 | an ascending sort is a permutation in non-decreasing key order |
| Store.SortDescConstantKey | routes/api/items.js:127 | sorting on a key every document shares keeps store order |
| Store.Window | routes/api/items.js:52-53 | skip/limit answers at most `limit` documents, those from position `skip` onward |
| Handlers.GuardedFind | routes/api/users.js:30-38 | a closed gate is Forbidden and an open one always answers: the document under the id, or null |
| Handlers.GuardedUpdate | routes/api/users.js:52-58 | a closed gate is Forbidden; with a unique index, an update that makes the document's key equal another document's is a duplicate key on the index's path and any other update succeeds; only the document under the id changes, an unknown id changes nothing, and the index stays unique |
| Handlers.GuardedDelete | routes/api/users.js:72-83 | a closed gate is Forbidden; an unknown id gives the collection's message; a known id is always removed, exactly that document |
| Access.OnlyOpenWriteIsMultijobsCreate | routes/api/multijobs.js:52 | creating a multijobs post is the only write an anonymous caller can reach |

## Left out

- I/O is not modelled: Express wiring, the database connection, `populate`, the S3 client, and the `deleteObject` call whose callback answers the delete request. A posting delete is modelled up to the removal and the derived key.
- The item delete handler is left out. It calls `split` on an array field and removes through the model rather than the instance, so what it does depends on library behaviour outside this model.
- GET /api/items with `limit(parseInt(limit))` is left out, because the library's reading of a NaN or negative limit is outside this model.
- GET /:id on items and multijobs is an open `findById`. Its answer is `Store.FindById`, and its gate is in `Access.Guard`.
- routes/api/utils/jobUpload.js and itemUpload.js are not part of this model. The jobs create takes the upload's outcome as a parameter. The items create takes what `array('pictures', 12)` produced: nothing for a request that is not multipart, otherwise the number of files received and the files stored.
- The `auth`/`authRole` middleware is not part of this model. A caller is anonymous or signed in with a role.
- models/User.js is not part of this model. A user keeps only the fields the handlers and gates use, with a unique index on `email`, the identifying field the store keeps unique.
- models/Subscriber.js, models/Document.js and the password-reset mailer are left out. They hold no logic the routes use.
- Upload.KeyOfLocationRecoversStoredName: the location is taken to be the bucket URL, '/', then the key as stored. S3 reports the key URI-escaped in the location, so for a name such as "cv (1).png" the key the delete handler derives is the escaped one and differs from the stored key; escaping is not modelled.
- Upload.SingleUpload: states the location as `bucketUrl + "/" + key`, the same unescaped format.
- Items.Create: when a request that is not multipart reaches the handler, the loop over `req.files` throws outside the `try` and no answer is sent; the model reports it as a `TypeError` on `length`.
- `slugify`, the Date cast of `deadline`, `uuidv4`, ObjectId generation and the clock are parameters.
- Mongoose's casting of ids and values is not modelled. A malformed ObjectId makes the query fail with a CastError: the awaited routes answer 400, and the callback-style GET /:id routes on users and categories ignore the error and answer 200 with an empty body, because the callback receives no document; the same handler also awaits the query a second time, which fails and makes a second attempt to answer.
- Mongoose's merge semantics for `findByIdAndUpdate` are not modelled. Updates on items, categories, multijobs and users are an arbitrary function on the document.
- Pagination.PageNo: `parseInt` is modelled over exact integers. Float precision for very long digit strings and query parameters given as arrays are not modelled. The white space it skips is the ECMAScript set of WhiteSpace and LineTerminator characters, with the Unicode space separators listed as of Unicode 15.
- JsText.ToLowerCase: lowercases ASCII letters only, not the full Unicode case mapping.
- Items.ValidateItem: measures the contact number in characters, not UTF-16 code units.
- Store.SortDesc: ties are broken in store order. The store does not promise an order for equal keys.
- Categories.Create: takes `date_created` as milliseconds. The Date cast of the request's text is not modelled.
- Categories.ValidateCategory: lists failing paths in schema order. Mongoose reports them in its own order.
- Postings.Validate: lists failing paths in schema order. Mongoose reports them in its own order.
- Items.ValidateItem: lists failing paths in schema order. Mongoose reports them in its own order.
- Multijobs.ValidateMultijob: lists failing paths in schema order. Mongoose reports them in its own order.
- Access.WriteGates, Access.CreatorScope, Access.ReadGates and Access.AdminPassesEveryGate have no row in the table above. They restate the route table `Access.Guard` and follow from its definition.

=== FILE: access.dfy ===
/** The role gates mounted in front of the routes.

    `authRole(roles)` lets a request through when the caller's role is one
    of `roles`; `auth` lets any signed-in caller through; a route without
    either is open. The middleware itself is not part of this model: a
    caller is either anonymous or signed in with a role. */
module Access {
  import opened Outcomes

  datatype Caller = Anonymous | SignedIn(role: string)

  datatype Gate = Open | Authenticated | RoleIn(roles: seq<string>)

  datatype Resource = Jobs | Scholarships | Items | Categories | Multijobs | Users

  datatype Action =
    | ListAll        // GET /
    | ListActive     // GET /activeJobs, /activeScholarships
    | Paginate       // GET /pagination
    | ByCategory     // GET /category/:id
    | BySubCategory  // GET /sub-category/:id
    | Archives       // GET /archives
    | GetOne         // GET /:id
    | Create         // POST /
    | Update         // PUT /:id
    | Delete         // DELETE /:id

  datatype Route = Route(resource: Resource, action: Action)

  const ADMIN: seq<string> := ["Admin"]
  const CREATOR_OR_ADMIN: seq<string> := ["Creator", "Admin"]

  predicate Allows(g: Gate, caller: Caller) {
    match g
    case Open => true
    case Authenticated => caller.SignedIn?
    case RoleIn(roles) => caller.SignedIn? && caller.role in roles
  }

  predicate Writes(a: Action) {
    a == Create || a == Update || a == Delete
  }

  /** The gate of each route; None where the router defines no such route. */
  function Guard(r: Route): Option<Gate> {
    match r.resource
    case Jobs =>
      (match r.action
       case ListAll | ListActive | ByCategory | BySubCategory | Archives => Some(Open)
       case Create => Some(RoleIn(ADMIN))
       case Update | Delete => Some(RoleIn(CREATOR_OR_ADMIN))
       case _ => None)
    case Scholarships =>
      (match r.action
       case ListAll | ListActive | ByCategory | BySubCategory | Archives => Some(Open)
       case Create | Update | Delete => Some(RoleIn(CREATOR_OR_ADMIN))
       case _ => None)
    case Items =>
      (match r.action
       case ListAll | Paginate | GetOne | ByCategory | BySubCategory => Some(Open)
       case Create => Some(Authenticated)
       case Update | Delete => Some(RoleIn(CREATOR_OR_ADMIN))
       case _ => None)
    case Categories =>
      (match r.action
       case ListAll => Some(Open)
       case GetOne => Some(RoleIn(CREATOR_OR_ADMIN))
       case Create | Update | Delete => Some(RoleIn(ADMIN))
       case _ => None)
    case Multijobs =>
      (match r.action
       case ListAll | GetOne | Create => Some(Open)
       case Update | Delete => Some(RoleIn(CREATOR_OR_ADMIN))
       case _ => None)
    case Users =>
      (match r.action
       case ListAll => Some(Open)
       case GetOne | Update | Delete => Some(RoleIn(ADMIN))
       case _ => None)
  }

  /** The route exists and its gate lets the caller through. */
  predicate Permits(r: Route, caller: Caller) {
    Guard(r).Some? && Allows(Guard(r).value, caller)
  }

  /** A route behind `authRole(['Admin'])` lets exactly an Admin through. */
  lemma AdminGate(r: Route, caller: Caller)
    requires Guard(r) == Some(RoleIn(ADMIN))
    ensures Permits(r, caller) <==> caller == SignedIn("Admin")
  {
  }

  /** A route behind `authRole(['Creator', 'Admin'])` lets exactly a Creator or an Admin through. */
  lemma CreatorOrAdminGate(r: Route, caller: Caller)
    requires Guard(r) == Some(RoleIn(CREATOR_OR_ADMIN))
    ensures Permits(r, caller) <==> caller.SignedIn? && caller.role in ["Creator", "Admin"]
  {
  }

  /** An Admin passes the gate of every route there is. */
  lemma AdminPassesEveryGate(r: Route)
    requires Guard(r).Some?
    ensures Permits(r, SignedIn("Admin"))
  {
  }

  /** Creating a multijobs post is the only write an anonymous caller can reach. */
  lemma OnlyOpenWriteIsMultijobsCreate(r: Route)
    requires Writes(r.action) && Permits(r, Anonymous)
    ensures r == Route(Multijobs, Create)
  {
  }

  /** The gates of the three write routes, per resource. */
  lemma WriteGates()
    ensures Guard(Route(Jobs, Create)) == Some(RoleIn(["Admin"]))
    ensures Guard(Route(Jobs, Update)) == Guard(Route(Jobs, Delete)) == Some(RoleIn(["Creator", "Admin"]))
    ensures Guard(Route(Scholarships, Create)) == Guard(Route(Scholarships, Update))
         == Guard(Route(Scholarships, Delete)) == Some(RoleIn(["Creator", "Admin"]))
    ensures Guard(Route(Items, Create)) == Some(Authenticated)
    ensures Guard(Route(Categories, Create)) == Guard(Route(Categories, Update))
         == Guard(Route(Categories, Delete)) == Some(RoleIn(["Admin"]))
    ensures Guard(Route(Multijobs, Create)) == Some(Open)
    ensures Guard(Route(Multijobs, Update)) == Guard(Route(Multijobs, Delete)) == Some(RoleIn(["Creator", "Admin"]))
    ensures Guard(Route(Users, Update)) == Guard(Route(Users, Delete)) == Some(RoleIn(["Admin"]))
  {
  }

  /** A Creator may create scholarships but not jobs or categories, and may not touch users. */
  lemma CreatorScope()
    ensures Permits(Route(Scholarships, Create), SignedIn("Creator"))
    ensures !Permits(Route(Jobs, Create), SignedIn("Creator"))
    ensures !Permits(Route(Categories, Create), SignedIn("Creator"))
    ensures Permits(Route(Categories, GetOne), SignedIn("Creator"))
    ensures forall a: Action :: a != ListAll ==> !Permits(Route(Users, a), SignedIn("Creator"))
  {
  }

  /** The listings are open to anyone; reading one category or one user is not. */
  lemma ReadGates()
    ensures forall res: Resource :: Guard(Route(res, ListAll)) == Some(Open)
    ensures Guard(Route(Categories, GetOne)) == Some(RoleIn(["Creator", "Admin"]))
    ensures Guard(Route(Users, GetOne)) == Some(RoleIn(["Admin"]))
    ensures Guard(Route(Items, GetOne)) == Guard(Route(Multijobs, GetOne)) == Some(Open)
  {
  }
}

=== FILE: categories.dfy ===
/** The Category schema and the `/api/categories` handlers. Every write,
    and reading a single category, is behind a role gate; the list is open. */
module Categories {
  import opened Outcomes
  import opened JsText
  import opened Store
  import opened Handlers
  import Access

  /** An entry of a category's `sub_category` array. */
  datatype SubCategory = SubCategory(name: string, description: string, dateCreated: int, creator: Option<Id>)

  datatype Category = Category(
    title: string,
    description: string,
    dateCreated: int,
    subCategories: seq<SubCategory>,
    creator: Option<Id>)

  /** A sub-category entry before validation. */
  datatype SubCategoryDraft = SubCategoryDraft(
    name: Option<string>,
    description: Option<string>,
    dateCreated: Option<int>,
    creator: Option<Id>)

  /** A category before validation. */
  datatype CategoryDraft = CategoryDraft(
    title: Option<string>,
    description: Option<string>,
    dateCreated: Option<int>,
    subCategories: seq<SubCategoryDraft>,
    creator: Option<Id>)

  /** The failing paths of entry `i`, as `sub_category.<i>.<path>`. */
  function EntryFailingPaths(i: nat, e: SubCategoryDraft): seq<string> {
    var prefix := "sub_category." + ShowNat(i) + ".";
    (if Truthy(e.name) then [] else [prefix + "name"])
    + (if Truthy(e.description) then [] else [prefix + "description"])
  }

  function EntriesFailingPaths(es: seq<SubCategoryDraft>, from: nat): seq<string>
    decreases |es|
  {
    if es == [] then [] else EntryFailingPaths(from, es[0]) + EntriesFailingPaths(es[1..], from + 1)
  }

  /** The entries' failing paths are empty exactly when every entry has a
      name and a description. */
  lemma {:induction false} EntriesFailingPathsEmpty(es: seq<SubCategoryDraft>, from: nat)
    ensures EntriesFailingPaths(es, from) == [] <==> forall k :: 0 <= k < |es| ==> Truthy(es[k].name) && Truthy(es[k].description)
    decreases |es|
  {
    if es != [] {
      EntriesFailingPathsEmpty(es[1..], from + 1);
      assert forall k :: 1 <= k < |es| ==> es[k] == es[1..][k - 1];
    }
  }

  /** The failing paths of a category, in schema order. */
  function CategoryFailingPaths(d: CategoryDraft): seq<string> {
    (if Truthy(d.title) then [] else ["title"])
    + (if Truthy(d.description) then [] else ["description"])
    + EntriesFailingPaths(d.subCategories, 0)
  }

  /** An entry with its `date_created` default applied. */
  function SubCategoryOf(e: SubCategoryDraft, now: int): SubCategory
    requires Truthy(e.name) && Truthy(e.description)
  {
    SubCategory(e.name.value, e.description.value, e.dateCreated.GetOr(now), e.creator)
  }

  /** `validate()` on the Category schema: a title, a description, and a
      name and a description on every sub-category entry; both
      `date_created` paths default to `now`. */
  function ValidateCategory(d: CategoryDraft, now: int): (r: Result<Category>)
    ensures r.Ok? <==> (Truthy(d.title) && Truthy(d.description)
                        && forall k :: 0 <= k < |d.subCategories| ==> Truthy(d.subCategories[k].name) && Truthy(d.subCategories[k].description))
    ensures r.Err? ==> r.error == ValidationFailed(CategoryFailingPaths(d))
    ensures r.Ok? ==>
              && r.value.title == d.title.value && r.value.description == d.description.value
              && r.value.dateCreated == d.dateCreated.GetOr(now)
              && r.value.creator == d.creator
              && |r.value.subCategories| == |d.subCategories|
              && forall k :: 0 <= k < |d.subCategories| ==>
                   && r.value.subCategories[k].name == d.subCategories[k].name.value
                   && r.value.subCategories[k].description == d.subCategories[k].description.value
                   && r.value.subCategories[k].dateCreated == d.subCategories[k].dateCreated.GetOr(now)
                   && r.value.subCategories[k].creator == d.subCategories[k].creator
  {
    EntriesFailingPathsEmpty(d.subCategories, 0);
    var failing := CategoryFailingPaths(d);
    if failing != [] then Err(ValidationFailed(failing))
    else
      var entries := seq(|d.subCategories|, k requires 0 <= k < |d.subCategories| => SubCategoryOf(d.subCategories[k], now));
      Ok(Category(d.title.value, d.description.value, d.dateCreated.GetOr(now), entries, d.creator))
  }

  /** An entry without a name fails validation on that entry's `name` path. */
  lemma EntryWithoutNameFails(d: CategoryDraft, now: int, k: nat)
    requires Truthy(d.title) && Truthy(d.description)
    requires k < |d.subCategories| && !Truthy(d.subCategories[k].name)
    requires forall j :: 0 <= j < |d.subCategories| && j != k ==> Truthy(d.subCategories[j].name) && Truthy(d.subCategories[j].description)
    requires Truthy(d.subCategories[k].description)
    ensures ValidateCategory(d, now) == Err(ValidationFailed(["sub_category." + ShowNat(k) + ".name"]))
  {
    EntriesOnlyOneFails(d.subCategories, 0, k);
  }

  lemma {:induction false} EntriesOnlyOneFails(es: seq<SubCategoryDraft>, from: nat, k: nat)
    requires k < |es| && !Truthy(es[k].name) && Truthy(es[k].description)
    requires forall j :: 0 <= j < |es| && j != k ==> Truthy(es[j].name) && Truthy(es[j].description)
    ensures EntriesFailingPaths(es, from) == ["sub_category." + ShowNat(from + k) + ".name"]
    decreases |es|
  {
    assert forall j :: 1 <= j < |es| ==> es[j] == es[1..][j - 1];
    if k == 0 {
      EntriesFailingPathsEmpty(es[1..], from + 1);
      assert "sub_category." + ShowNat(from) + "." + "name" == "sub_category." + ShowNat(from) + ".name";
    } else {
      EntriesOnlyOneFails(es[1..], from + 1, k - 1);
    }
  }

  /** The value the unique index on `title` reads. */
  function TitleOf(k: Category): string {
    k.title
  }

  /** The unique index on `title`. */
  const TITLE_INDEX: Index<Category> := Index("title", TitleOf)

  /** No two categories share a title. */
  predicate UniqueTitles(c: seq<Doc<Category>>) {
    UniqueBy(c, TitleOf)
  }

  /** `findOne({ title })` finds a category. */
  predicate TitleTaken(c: seq<Doc<Category>>, title: string) {
    exists d :: d in c && d.body.title == title
  }

  /** The sort key `date_created`. */
  function DateCreated(d: Doc<Category>): int {
    d.body.dateCreated
  }

  /** GET /: every category, oldest first. */
  function ListAll(c: seq<Doc<Category>>): (docs: seq<Doc<Category>>)
    ensures multiset(docs) == multiset(c)
    ensures SortedAsc(docs, DateCreated)
  {
    SortAsc(c, DateCreated)
  }

  /** GET /:id, for a Creator or an Admin. */
  function GetOne(c: seq<Doc<Category>>, caller: Access.Caller, id: Id): (res: Result<Option<Category>>)
    ensures res.Err? <==> !(caller.SignedIn? && caller.role in ["Creator", "Admin"])
    ensures res.Ok? ==> (res.value.None? <==> !HasId(c, id))
    ensures res.Ok? && res.value.Some? ==> Doc(id, res.value.value) in c
  {
    Access.CreatorOrAdminGate(Access.Route(Access.Categories, Access.GetOne), caller);
    GuardedFind(Access.Route(Access.Categories, Access.GetOne), c, caller, id)
  }

  const FILL_ALL_FIELDS: string := "Please fill all the fields"
  const ALREADY_EXISTS: string := "Category already exists!"

  /** The fields of a create request. */
  datatype CategoryForm = CategoryForm(
    title: Option<string>,
    description: Option<string>,
    dateCreated: Option<int>,
    creator: Option<Id>)

  /** A successful create: the collection after the insert and the saved category. */
  datatype CreatedCategory = CreatedCategory(store: seq<Doc<Category>>, saved: Doc<Category>)

  /** POST /, for an Admin: both fields, then a title no category has yet,
      then the insert. */
  function Create(c: seq<Doc<Category>>, caller: Access.Caller, f: CategoryForm, newId: Id, now: int)
    : (res: Result<CreatedCategory>)
    ensures !(caller.SignedIn? && caller.role == "Admin") <==> res == Err(Forbidden)
    ensures caller == Access.SignedIn("Admin") && !(Truthy(f.title) && Truthy(f.description)) ==>
              res == Err(Rejected(FILL_ALL_FIELDS))
    ensures caller == Access.SignedIn("Admin") && Truthy(f.title) && Truthy(f.description) ==>
              (res == Err(Rejected(ALREADY_EXISTS)) <==> TitleTaken(c, f.title.value))
    ensures caller == Access.SignedIn("Admin") && Truthy(f.title) && Truthy(f.description) && !TitleTaken(c, f.title.value) ==>
              (if HasId(c, newId) then res == Err(DuplicateKey("_id")) else res.Ok?)
    ensures res.Ok? ==>
              && res.value.store == c + [res.value.saved]
              && |res.value.store| == |c| + 1
              && res.value.saved.id == newId
              && res.value.saved.body.title == f.title.value
              && res.value.saved.body.description == f.description.value
              && res.value.saved.body.creator == f.creator
              && res.value.saved.body.dateCreated == f.dateCreated.GetOr(now)
              && res.value.saved.body.subCategories == []
    ensures res.Ok? && UniqueTitles(c) ==> UniqueTitles(res.value.store)
    ensures res.Ok? && DistinctIds(c) ==> DistinctIds(res.value.store)
  {
    Access.AdminGate(Access.Route(Access.Categories, Access.Create), caller);
    if !Access.Permits(Access.Route(Access.Categories, Access.Create), caller) then Err(Forbidden)
    else if !Truthy(f.title) || !Truthy(f.description) then Err(Rejected(FILL_ALL_FIELDS))
    else if TitleTaken(c, f.title.value) then Err(Rejected(ALREADY_EXISTS))
    else
      var checked := ValidateCategory(CategoryDraft(f.title, f.description, f.dateCreated, [], f.creator), now);
      if HasId(c, newId) then Err(DuplicateKey("_id"))
      else
        var saved := Doc(newId, checked.value);
        assert forall d :: d in c ==> d.id != newId && d.body.title != saved.body.title;
        Ok(CreatedCategory(c + [saved], saved))
  }

  /** Once a category is created, a second create with the same title is
      refused as a duplicate, whatever its description. */
  lemma SameTitleRejected(c: seq<Doc<Category>>, f: CategoryForm, newId: Id, now: int, f2: CategoryForm, newId2: Id, now2: int)
    requires Create(c, Access.SignedIn("Admin"), f, newId, now).Ok?
    requires f2.title == f.title && Truthy(f2.description)
    ensures var c2 := Create(c, Access.SignedIn("Admin"), f, newId, now).value.store;
            Create(c2, Access.SignedIn("Admin"), f2, newId2, now2) == Err(Rejected(ALREADY_EXISTS))
  {
    var created := Create(c, Access.SignedIn("Admin"), f, newId, now).value;
    assert created.saved in created.store;
  }

  /** PUT /:id, for an Admin. An update that gives the category the title
      of another one is refused by the unique index, and nothing changes. */
  function Update(c: seq<Doc<Category>>, caller: Access.Caller, id: Id, patch: Category -> Category)
    : (res: Result<(seq<Doc<Category>>, Option<Category>)>)
    ensures caller != Access.SignedIn("Admin") <==> res == Err(Forbidden)
    ensures caller == Access.SignedIn("Admin") && HasId(c, id) && Collides(c, id, TitleOf, patch(FindById(c, id).value)) ==>
              res == Err(DuplicateKey("title"))
    ensures caller == Access.SignedIn("Admin") && !(HasId(c, id) && Collides(c, id, TitleOf, patch(FindById(c, id).value))) ==>
              res.Ok?
    ensures res.Ok? ==> (res.value.1.None? <==> !HasId(c, id))
    ensures res.Ok? && !HasId(c, id) ==> res.value.0 == c
    ensures res.Ok? && HasId(c, id) ==> res.value.1 == Some(patch(FindById(c, id).value))
    ensures res.Ok? ==> |res.value.0| == |c| && forall i :: 0 <= i < |c| && c[i].id != id ==> res.value.0[i] == c[i]
    ensures res.Ok? && DistinctIds(c) ==> FindById(res.value.0, id) == res.value.1
    ensures res.Ok? && DistinctIds(c) && UniqueTitles(c) ==> UniqueTitles(res.value.0)
  {
    Access.AdminGate(Access.Route(Access.Categories, Access.Update), caller);
    GuardedUpdate(Access.Route(Access.Categories, Access.Update), c, caller, id, patch, Some(TITLE_INDEX))
  }

  const NOT_FOUND: string := "Category is not found!"

  /** DELETE /:id, for an Admin. A successful delete sends no response. */
  function Delete(c: seq<Doc<Category>>, caller: Access.Caller, id: Id): (res: Result<Deleted<Category>>)
    ensures caller != Access.SignedIn("Admin") <==> res == Err(Forbidden)
    ensures caller == Access.SignedIn("Admin") && !HasId(c, id) <==> res == Err(Rejected(NOT_FOUND))
    ensures caller == Access.SignedIn("Admin") && HasId(c, id) ==> res.Ok?
    ensures res.Ok? ==> res.value.reply.None?
    ensures res.Ok? ==> forall d :: d in res.value.store <==> d in c && d.id != id
    ensures res.Ok? && DistinctIds(c) ==> |res.value.store| == |c| - 1
  {
    Access.AdminGate(Access.Route(Access.Categories, Access.Delete), caller);
    GuardedDelete(Access.Route(Access.Categories, Access.Delete), c, caller, id, NOT_FOUND, None)
  }
}

=== FILE: deadlines.dfy ===
/** The active/archived split of jobs and scholarships.

    Each of the two route modules computes `yesterday` once, when it is
    loaded: the load time minus 24 hours, in milliseconds. Every request
    served afterwards compares deadlines against that same instant. Three
    comparisons are in use: `$gt` for active postings, `$lt` for a page of
    the archive and `$lte` for the unpaginated archive. */
module Deadlines {

  /** 24 * 60 * 60 * 1000 milliseconds. */
  const DAY_MS: int := 24 * 60 * 60 * 1000

  /** `new Date(today.getTime() - (24 * 60 * 60 * 1000))`, with `today` the load time. */
  function Yesterday(loadTime: int): (cutoff: int)
    ensures cutoff + 86_400_000 == loadTime
  {
    loadTime - DAY_MS
  }

  /** `{ deadline: { $gt: yesterday } }`. */
  predicate Active(deadline: int, cutoff: int) {
    deadline > cutoff
  }

  /** `{ deadline: { $lt: yesterday } }`, used for a page of the archive. */
  predicate ArchivedOnPage(deadline: int, cutoff: int) {
    deadline < cutoff
  }

  /** `{ deadline: { $lte: yesterday } }`, used for the unpaginated archive. */
  predicate ArchivedUnpaged(deadline: int, cutoff: int) {
    deadline <= cutoff
  }
}

=== FILE: handlers.dfy ===
/** The shapes every router repeats: a gated `findById`, a gated
    `findByIdAndUpdate`, and a gated delete that looks the document up,
    fails with a per-collection message when it is missing, and otherwise
    removes it. */
module Handlers {
  import opened Outcomes
  import opened Store
  import Access

  /** The answer of the create handlers when a required field is falsy. */
  const MISSING_INFO: string := "There are missing info!"

  /** GET /:id behind the route's gate: the document, or null (`None`). */
  function GuardedFind<T(==,!new)>(route: Access.Route, c: seq<Doc<T>>, caller: Access.Caller, id: Id): (res: Result<Option<T>>)
    ensures !Access.Permits(route, caller) <==> res == Err(Forbidden)
    ensures Access.Permits(route, caller) ==> res.Ok?
    ensures res.Ok? ==> (res.value.None? <==> !HasId(c, id))
    ensures res.Ok? && res.value.Some? ==> Doc(id, res.value.value) in c
  {
    if !Access.Permits(route, caller) then Err(Forbidden) else Ok(FindById(c, id))
  }

  /** The update of the document under `id` would give it a value of the
      unique index that another document already holds. */
  predicate Clashes<T(==,!new)>(c: seq<Doc<T>>, id: Id, patch: T -> T, unique: Option<Index<T>>) {
    unique.Some? && HasId(c, id) && Collides(c, id, unique.value.key, patch(FindById(c, id).value))
  }

  /** PUT /:id behind the route's gate. The request body is an abstract
      partial update `patch`; the answer is the updated document, or null
      when no document has the id, in which case nothing changes. `unique`
      is the collection's unique index besides `_id`, if it has one: an
      update that would duplicate a value of it is refused and nothing
      changes. */
  function GuardedUpdate<T(==,!new)>(route: Access.Route, c: seq<Doc<T>>, caller: Access.Caller, id: Id, patch: T -> T,
                                     unique: Option<Index<T>>)
    : (res: Result<(seq<Doc<T>>, Option<T>)>)
    ensures !Access.Permits(route, caller) <==> res == Err(Forbidden)
    ensures Access.Permits(route, caller) ==> (res.Ok? <==> !Clashes(c, id, patch, unique))
    ensures Access.Permits(route, caller) && Clashes(c, id, patch, unique) ==> res == Err(DuplicateKey(unique.value.path))
    ensures res.Ok? ==> |res.value.0| == |c|
    ensures res.Ok? ==> forall i :: 0 <= i < |c| && c[i].id != id ==> res.value.0[i] == c[i]
    ensures res.Ok? ==> (res.value.1.None? <==> !HasId(c, id))
    ensures res.Ok? && !HasId(c, id) ==> res.value.0 == c
    ensures res.Ok? && HasId(c, id) ==> res.value.1 == Some(patch(FindById(c, id).value))
    ensures res.Ok? && DistinctIds(c) ==> DistinctIds(res.value.0) && FindById(res.value.0, id) == res.value.1
    ensures res.Ok? && DistinctIds(c) && unique.Some? && UniqueBy(c, unique.value.key) ==> UniqueBy(res.value.0, unique.value.key)
  {
    if !Access.Permits(route, caller) then Err(Forbidden)
    else if Clashes(c, id, patch, unique) then Err(DuplicateKey(unique.value.path))
    else
      var r := FindByIdAndUpdate(c, id, patch);
      if DistinctIds(c) then
        assert DistinctIds(r.0);
        if HasId(c, id) then
          FindByIdOfMember(r.0, id, r.1.value);
          if unique.Some? && UniqueBy(c, unique.value.key) then
            UpdateKeepsUnique(c, id, patch, unique.value.key);
            Ok(r)
          else Ok(r)
        else Ok(r)
      else Ok(r)
  }

  /** A successful delete: the collection without the document, and the
      message answered, or `None` when the handler sends no response. */
  datatype Deleted<T> = Deleted(store: seq<Doc<T>>, reply: Option<string>)

  /** DELETE /:id behind the route's gate, for routers whose delete only
      removes the document. */
  function GuardedDelete<T(==,!new)>(route: Access.Route, c: seq<Doc<T>>, caller: Access.Caller, id: Id,
                                     notFound: string, reply: Option<string>): (res: Result<Deleted<T>>)
    ensures !Access.Permits(route, caller) <==> res == Err(Forbidden)
    ensures Access.Permits(route, caller) && !HasId(c, id) <==> res == Err(Rejected(notFound))
    ensures Access.Permits(route, caller) && HasId(c, id) ==> res.Ok?
    ensures res.Ok? ==> HasId(c, id) && res.value.reply == reply
    ensures res.Ok? ==> forall d :: d in res.value.store <==> d in c && d.id != id
    ensures res.Ok? && DistinctIds(c) ==> |res.value.store| == |c| - 1 && DistinctIds(res.value.store)
  {
    if !Access.Permits(route, caller) then Err(Forbidden)
    else if !HasId(c, id) then Err(Rejected(notFound))
    else
      if DistinctIds(c) then RemoveByIdDropsOne(c, id); Ok(Deleted(RemoveById(c, id), reply))
      else Ok(Deleted(RemoveById(c, id), reply))
  }
}

=== FILE: items.dfy ===
/** The Item schema and the `/api/items` handlers.

    The create route stores the pictures through an upload middleware
    (`itemUpload.js`, not part of this model) before the gate runs; the
    handler receives the stored files in upload order. */
module Items {
  import opened Outcomes
  import opened JsText
  import opened Store
  import opened Pagination
  import opened Upload
  import opened Handlers
  import Access

  /** A saved item. `price` is a string path; `dateCreated` is in milliseconds. */
  datatype Item = Item(
    title: string,
    description: string,
    brand: string,
    price: string,
    pictures: seq<string>,
    dateCreated: int,
    category: Id,
    subCategory: string,
    contactNumber: string,
    creator: Option<Id>)

  const DEFAULT_CATEGORY: Id := "60cddc4c181fa53764a17297"
  const DEFAULT_SUB_CATEGORY: string := "60cde50716f3e4305c6e8984"

  /** The numeric default `0`, cast to the string path's type. */
  const DEFAULT_PRICE: string := "0"

  /** The `minlength` and `maxlength` of `contactNumber`. */
  const CONTACT_MIN_LENGTH: nat := 10
  const CONTACT_MAX_LENGTH: nat := 13

  /** An item before validation; `None` for `undefined`. */
  datatype ItemDraft = ItemDraft(
    title: Option<string>,
    description: Option<string>,
    brand: Option<string>,
    price: Option<string>,
    pictures: seq<string>,
    dateCreated: Option<int>,
    category: Option<Id>,
    subCategory: Option<string>,
    contactNumber: Option<string>,
    creator: Option<Id>)

  predicate ContactNumberFits(n: string) {
    CONTACT_MIN_LENGTH <= |n| <= CONTACT_MAX_LENGTH
  }

  /** A path with a default takes it when the value is absent. */
  function Defaulted(v: Option<string>, default: string): Option<string> {
    if v.None? then Some(default) else v
  }

  /** The paths that fail validation, in schema order: a required string
      fails when absent or empty, `contactNumber` also when its length is
      outside the bounds. `date_created` always has its default. */
  function ItemFailingPaths(d: ItemDraft): seq<string> {
    (if Truthy(d.title) then [] else ["title"])
    + (if Truthy(d.description) then [] else ["description"])
    + (if Truthy(d.brand) then [] else ["brand"])
    + (if Truthy(Defaulted(d.price, DEFAULT_PRICE)) then [] else ["price"])
    + (if Truthy(Defaulted(d.subCategory, DEFAULT_SUB_CATEGORY)) then [] else ["sub_category"])
    + (if Truthy(d.contactNumber) && ContactNumberFits(d.contactNumber.value) then [] else ["contactNumber"])
  }

  /** `validate()` on the Item schema. */
  function ValidateItem(d: ItemDraft, now: int): (r: Result<Item>)
    ensures r.Err? <==> ItemFailingPaths(d) != []
    ensures r.Err? ==> r.error == ValidationFailed(ItemFailingPaths(d))
    ensures r.Ok? ==>
              && Truthy(d.title) && r.value.title == d.title.value
              && Truthy(d.description) && r.value.description == d.description.value
              && Truthy(d.brand) && r.value.brand == d.brand.value
              && r.value.price == d.price.GetOr(DEFAULT_PRICE) && r.value.price != ""
              && r.value.pictures == d.pictures
              && r.value.dateCreated == d.dateCreated.GetOr(now)
              && r.value.category == d.category.GetOr(DEFAULT_CATEGORY)
              && r.value.subCategory == d.subCategory.GetOr(DEFAULT_SUB_CATEGORY) && r.value.subCategory != ""
              && d.contactNumber.Some? && r.value.contactNumber == d.contactNumber.value
              && CONTACT_MIN_LENGTH <= |r.value.contactNumber| <= CONTACT_MAX_LENGTH
              && r.value.creator == d.creator
  {
    var failing := ItemFailingPaths(d);
    if failing != [] then Err(ValidationFailed(failing))
    else
      Ok(Item(
        title := d.title.value,
        description := d.description.value,
        brand := d.brand.value,
        price := d.price.GetOr(DEFAULT_PRICE),
        pictures := d.pictures,
        dateCreated := d.dateCreated.GetOr(now),
        category := d.category.GetOr(DEFAULT_CATEGORY),
        subCategory := d.subCategory.GetOr(DEFAULT_SUB_CATEGORY),
        contactNumber := d.contactNumber.value,
        creator := d.creator))
  }

  /** A draft whose only fault is the contact number's length fails on
      that path alone: a number of 9 or of 14 characters is refused, one of
      10 to 13 is accepted. */
  lemma ContactNumberBounds(d: ItemDraft, now: int)
    requires Truthy(d.title) && Truthy(d.description) && Truthy(d.brand)
    requires d.price.None? || Truthy(d.price)
    requires d.subCategory.None? || Truthy(d.subCategory)
    requires Truthy(d.contactNumber)
    ensures ValidateItem(d, now).Ok? <==> 10 <= |d.contactNumber.value| <= 13
    ensures ValidateItem(d, now).Err? ==> ValidateItem(d, now).error == ValidationFailed(["contactNumber"])
  {
  }

  /** An item created without a price is saved with the price "0". */
  lemma MissingPriceDefaultsToZero(d: ItemDraft, now: int)
    requires d.price.None? && ValidateItem(d, now).Ok?
    ensures ValidateItem(d, now).value.price == "0"
  {
  }

  /** The sort key `date_created`. */
  function DateCreated(d: Doc<Item>): int {
    d.body.dateCreated
  }

  /** The key of `.sort({ createdAt: -1 })` on the category routes. Items
      have no `createdAt` path, so every item sorts as equal. */
  function MissingCreatedAt(d: Doc<Item>): int {
    0
  }

  /** `find().sort({ date_created: -1 })`: every item, newest first. */
  function NewestItems(c: seq<Doc<Item>>): (all: seq<Doc<Item>>)
    ensures multiset(all) == multiset(c)
    ensures SortedDesc(all, DateCreated)
  {
    SortDesc(c, DateCreated)
  }

  /** A listing of items with its page count. */
  datatype ItemsPage = ItemsPage(totalPages: nat, items: seq<Doc<Item>>)

  /** GET /pagination. A positive page number selects 18 items of the list
      newest first; otherwise the whole list is answered. The page count is
      always that of the whole collection. */
  function Paginate(c: seq<Doc<Item>>, pageNoQuery: Option<string>): (reply: ItemsPage)
    ensures reply.totalPages == TotalPages(|c|, ITEMS_PAGE_SIZE)
    ensures SortedDesc(reply.items, DateCreated)
    ensures !Paginated(PageNo(pageNoQuery)) ==> reply.items == NewestItems(c)
    ensures Paginated(PageNo(pageNoQuery)) ==>
              && |reply.items| <= ITEMS_PAGE_SIZE
              && (forall d :: d in reply.items ==> d in c)
              && reply.items == PageOf(NewestItems(c), ITEMS_PAGE_SIZE, PageNo(pageNoQuery).value)
  {
    var pageNo := PageNo(pageNoQuery);
    var all := NewestItems(c);
    if Paginated(pageNo) then
      var page := PageOf(all, ITEMS_PAGE_SIZE, pageNo.value);
      assert forall d :: d in page ==> d in multiset(all);
      ItemsPage(TotalPages(|c|, ITEMS_PAGE_SIZE), page)
    else
      ItemsPage(TotalPages(|c|, ITEMS_PAGE_SIZE), all)
  }

  /** Without `pageNo` the whole listing is answered. */
  lemma NoPageQuery(c: seq<Doc<Item>>)
    ensures Paginate(c, None).items == NewestItems(c)
  {
    MissingPageNoIsUnpaginated(None);
  }

  /** A query that parses as a positive page `n` answers page `n` of the
      unpaginated listing. */
  lemma PageOfListing(c: seq<Doc<Item>>, query: Option<string>)
    ensures Paginated(PageNo(query)) ==>
              Paginate(c, query).items == PageOf(Paginate(c, None).items, ITEMS_PAGE_SIZE, PageNo(query).value)
  {
    NoPageQuery(c);
  }

  /** Every item is on some page of `/pagination` within the page count,
      and a page past the last one is empty but reports the same count. */
  lemma ItemPagesCover(c: seq<Doc<Item>>, d: Doc<Item>, beyond: nat)
    requires d in c && beyond > TotalPages(|c|, ITEMS_PAGE_SIZE)
    ensures exists n: nat :: 0 < n <= TotalPages(|c|, ITEMS_PAGE_SIZE) && d in Paginate(c, Some(ShowNat(n))).items
    ensures Paginate(c, Some(ShowNat(beyond))).items == []
    ensures Paginate(c, Some(ShowNat(beyond))).totalPages == Paginate(c, None).totalPages
  {
    var all := NewestItems(c);
    assert d in multiset(c);
    var i :| 0 <= i < |all| && all[i] == d;
    var n := i / ITEMS_PAGE_SIZE + 1;
    PageCover(all, ITEMS_PAGE_SIZE, i);
    DecimalPageNo(n);
    DecimalPageNo(beyond);
    PageBeyondLastIsEmpty(all, ITEMS_PAGE_SIZE, beyond);
    assert Paginate(c, Some(ShowNat(n))).items == PageOf(all, ITEMS_PAGE_SIZE, n);
  }

  function CategoryFilter(id: Id): Doc<Item> -> bool {
    (d: Doc<Item>) => d.body.category == id
  }

  function SubCategoryFilter(id: string): Doc<Item> -> bool {
    (d: Doc<Item>) => d.body.subCategory == id
  }

  /** `.sort({ createdAt: -1 })` on the category routes. The sort is on a
      path items lack, so the answer keeps store order. */
  function SortByCreatedAt(s: seq<Doc<Item>>): (r: seq<Doc<Item>>)
    ensures r == s
  {
    SortDescConstantKey(s, MissingCreatedAt, 0);
    SortDesc(s, MissingCreatedAt)
  }

  /** GET /category/:id. Only a positive page number filters by the
      category: the answer is then one page of the category's items in store
      order. Otherwise every item is answered, in store order. The page
      count is that of the whole collection. */
  function ByCategory(c: seq<Doc<Item>>, id: Id, pageNoQuery: Option<string>): (reply: ItemsPage)
    ensures reply.totalPages == TotalPages(|c|, LISTING_PAGE_SIZE)
    ensures !Paginated(PageNo(pageNoQuery)) ==> reply.items == c
    ensures Paginated(PageNo(pageNoQuery)) ==>
              && |reply.items| <= LISTING_PAGE_SIZE
              && reply.items == PageOf(Where(c, CategoryFilter(id)), LISTING_PAGE_SIZE, PageNo(pageNoQuery).value)
              && forall d :: d in reply.items ==> d in c && d.body.category == id
  {
    var pageNo := PageNo(pageNoQuery);
    var total := TotalPages(|c|, LISTING_PAGE_SIZE);
    if Paginated(pageNo) then
      var all := SortByCreatedAt(Where(c, CategoryFilter(id)));
      ItemsPage(total, PageOf(all, LISTING_PAGE_SIZE, pageNo.value))
    else
      ItemsPage(total, SortByCreatedAt(c))
  }

  /** GET /sub-category/:id, the same as the category route on `sub_category`. */
  function BySubCategory(c: seq<Doc<Item>>, id: string, pageNoQuery: Option<string>): (reply: ItemsPage)
    ensures reply.totalPages == TotalPages(|c|, LISTING_PAGE_SIZE)
    ensures !Paginated(PageNo(pageNoQuery)) ==> reply.items == c
    ensures Paginated(PageNo(pageNoQuery)) ==>
              && |reply.items| <= LISTING_PAGE_SIZE
              && reply.items == PageOf(Where(c, SubCategoryFilter(id)), LISTING_PAGE_SIZE, PageNo(pageNoQuery).value)
              && forall d :: d in reply.items ==> d in c && d.body.subCategory == id
  {
    var pageNo := PageNo(pageNoQuery);
    var total := TotalPages(|c|, LISTING_PAGE_SIZE);
    if Paginated(pageNo) then
      var all := SortByCreatedAt(Where(c, SubCategoryFilter(id)));
      ItemsPage(total, PageOf(all, LISTING_PAGE_SIZE, pageNo.value))
    else
      ItemsPage(total, SortByCreatedAt(c))
  }

  /** Without a positive page number the category and sub-category routes
      give the same answer whatever the id. */
  lemma UnpaginatedIgnoresId(c: seq<Doc<Item>>, id1: Id, id2: Id, pageNoQuery: Option<string>)
    requires !Paginated(PageNo(pageNoQuery))
    ensures ByCategory(c, id1, pageNoQuery) == ByCategory(c, id2, pageNoQuery) == BySubCategory(c, id1, pageNoQuery)
  {
  }

  /** The locations of the stored files, in upload order. */
  function Locations(files: seq<Stored>): seq<string> {
    seq(|files|, i requires 0 <= i < |files| => files[i].location)
  }

  /** The handler's loop that pushes each stored file's location in turn
      computes `Locations`. */
  method CollectPictures(files: seq<Stored>) returns (pictures: seq<string>)
    ensures |pictures| == |files|
    ensures forall i :: 0 <= i < |files| ==> pictures[i] == files[i].location
    ensures pictures == Locations(files)
  {
    pictures := [];
    var i := 0;
    while i < |files|
      invariant 0 <= i <= |files|
      invariant |pictures| == i
      invariant forall k :: 0 <= k < i ==> pictures[k] == files[k].location
    {
      pictures := pictures + [files[i].location];
      i := i + 1;
    }
  }

  /** `array('pictures', 12)`: the most files the field may carry. */
  const MAX_PICTURES: nat := 12

  /** What the upload middleware hands on: `NotMultipart` when the request
      is not multipart and `req.files` stays undefined; otherwise the number
      of files received in `pictures` and the files the storage kept. */
  datatype PictureUpload = NotMultipart | Multipart(received: nat, stored: seq<Stored>)

  /** The middleware refuses a request with more files than the field allows. */
  predicate TooMany(u: PictureUpload) {
    u.Multipart? && u.received > MAX_PICTURES
  }

  /** The text fields of a create request. */
  datatype ItemForm = ItemForm(
    title: Option<string>,
    description: Option<string>,
    brand: Option<string>,
    price: Option<string>,
    category: Option<Id>,
    subCategory: Option<string>,
    contactNumber: Option<string>,
    creator: Option<Id>)

  /** The seven fields the handler checks before building the item. */
  predicate HasRequiredInfo(f: ItemForm) {
    && Truthy(f.title) && Truthy(f.description) && Truthy(f.brand) && Truthy(f.price)
    && Truthy(f.category) && Truthy(f.subCategory) && Truthy(f.contactNumber)
  }

  /** A successful create: the collection after the insert and the saved item. */
  datatype CreatedItem = CreatedItem(store: seq<Doc<Item>>, saved: Doc<Item>)

  /** POST /: the upload middleware, then the gate (any signed-in caller),
      then the loop over `req.files`, the required-info check, the schema and
      the `_id` index. The loop runs outside the handler's `try`: on a request
      that is not multipart it throws and no answer is sent. */
  function Create(c: seq<Doc<Item>>, caller: Access.Caller, upload: PictureUpload, f: ItemForm, newId: Id, now: int)
    : (res: Result<CreatedItem>)
    ensures TooMany(upload) <==> res == Err(TooManyFiles("pictures"))
    ensures !TooMany(upload) ==> (caller.Anonymous? <==> res == Err(Forbidden))
    ensures caller.SignedIn? && upload.NotMultipart? ==> res == Err(TypeError("length"))
    ensures caller.SignedIn? && upload.Multipart? && !TooMany(upload) && !HasRequiredInfo(f) ==>
              res == Err(Rejected(MISSING_INFO))
    ensures caller.SignedIn? && upload.Multipart? && !TooMany(upload) && HasRequiredInfo(f)
            && !ContactNumberFits(f.contactNumber.value) ==>
              res == Err(ValidationFailed(["contactNumber"]))
    ensures caller.SignedIn? && upload.Multipart? && !TooMany(upload) && HasRequiredInfo(f)
            && ContactNumberFits(f.contactNumber.value) ==>
              (res.Ok? <==> !HasId(c, newId))
    ensures res.Ok? ==>
              && upload.Multipart? && upload.received <= MAX_PICTURES
              && res.value.store == c + [res.value.saved]
              && res.value.saved.id == newId
              && res.value.saved.body.title == f.title.value
              && res.value.saved.body.description == f.description.value
              && res.value.saved.body.brand == f.brand.value
              && res.value.saved.body.price == f.price.value
              && res.value.saved.body.category == f.category.value
              && res.value.saved.body.subCategory == f.subCategory.value
              && res.value.saved.body.contactNumber == f.contactNumber.value
              && res.value.saved.body.creator == f.creator
              && res.value.saved.body.dateCreated == now
              && |res.value.saved.body.pictures| == |upload.stored|
              && (forall i :: 0 <= i < |upload.stored| ==> res.value.saved.body.pictures[i] == upload.stored[i].location)
    ensures res.Ok? && DistinctIds(c) ==> DistinctIds(res.value.store)
  {
    if TooMany(upload) then Err(TooManyFiles("pictures"))
    else if !Access.Permits(Access.Route(Access.Items, Access.Create), caller) then Err(Forbidden)
    else if upload.NotMultipart? then Err(TypeError("length"))
    else if !HasRequiredInfo(f) then Err(Rejected(MISSING_INFO))
    else
      var draft := ItemDraft(f.title, f.description, f.brand, f.price, Locations(upload.stored), None,
                             f.category, f.subCategory, f.contactNumber, f.creator);
      var checked := ValidateItem(draft, now);
      if checked.Err? then Err(checked.error)
      else if HasId(c, newId) then Err(DuplicateKey("_id"))
      else
        var saved := Doc(newId, checked.value);
        assert forall d :: d in c ==> d.id != newId;
        Ok(CreatedItem(c + [saved], saved))
  }

  /** PUT /:id, for a Creator or an Admin. */
  function Update(c: seq<Doc<Item>>, caller: Access.Caller, id: Id, patch: Item -> Item)
    : (res: Result<(seq<Doc<Item>>, Option<Item>)>)
    ensures !(caller.SignedIn? && caller.role in ["Creator", "Admin"]) <==> res == Err(Forbidden)
    ensures caller.SignedIn? && caller.role in ["Creator", "Admin"] ==> res.Ok?
    ensures res.Ok? ==> (res.value.1.None? <==> !HasId(c, id))
    ensures res.Ok? && HasId(c, id) ==> res.value.1 == Some(patch(FindById(c, id).value))
    ensures res.Ok? && DistinctIds(c) ==> FindById(res.value.0, id) == res.value.1
    ensures res.Ok? ==> |res.value.0| == |c| && forall i :: 0 <= i < |c| && c[i].id != id ==> res.value.0[i] == c[i]
  {
    Access.CreatorOrAdminGate(Access.Route(Access.Items, Access.Update), caller);
    GuardedUpdate(Access.Route(Access.Items, Access.Update), c, caller, id, patch, None)
  }
}

=== FILE: js_text.dfy ===
/** The JavaScript string built-ins the handlers rely on: truthiness of a
    request field, `parseInt`, `toLowerCase`, `split` and `join`. */
module JsText {
  import opened Outcomes

  /** `!!field` for a string field of a request body: absent (`undefined`) and `""` are falsy. */
  predicate Truthy(v: Option<string>) {
    v.Some? && v.value != ""
  }

  // ---------------------------------------------------------------------------
  // parseInt(s) with no radix argument (section 19.2.5 of ECMA-262)
  // ---------------------------------------------------------------------------

  /** The white-space and line-terminator characters `parseInt` skips in
      front of the number: tab, vertical tab, form feed, the byte-order mark,
      the space separators of Unicode category Zs, line feed, carriage
      return, and the line and paragraph separators. */
  predicate IsSpace(c: char) {
    || c == '\t' || c == '\U{B}' || c == '\U{C}' || c == '\U{FEFF}'
    || c == '\n' || c == '\r' || c == '\U{2028}' || c == '\U{2029}'
    || c == ' ' || c == '\U{A0}' || c == '\U{1680}' || ('\U{2000}' <= c <= '\U{200A}')
    || c == '\U{202F}' || c == '\U{205F}' || c == '\U{3000}'
  }

  function TrimStart(s: string): (r: string)
    ensures |r| <= |s| && r == s[|s| - |r|..]
    ensures r == [] || !IsSpace(r[0])
    ensures forall i :: 0 <= i < |s| - |r| ==> IsSpace(s[i])
  {
    if s != [] && IsSpace(s[0]) then
      var r := TrimStart(s[1..]);
      assert forall i :: 1 <= i < |s| - |r| ==> s[i] == s[1..][i - 1];
      r
    else s
  }

  predicate IsDecimalDigit(c: char) {
    '0' <= c <= '9'
  }

  predicate IsDigit(c: char, radix: nat) {
    if radix == 16 then IsDecimalDigit(c) || 'a' <= c <= 'f' || 'A' <= c <= 'F'
    else IsDecimalDigit(c)
  }

  function DigitValue(c: char): (v: nat)
    ensures IsDecimalDigit(c) ==> v < 10
    ensures v < 16
  {
    if IsDecimalDigit(c) then c as int - '0' as int
    else if 'a' <= c <= 'f' then c as int - 'a' as int + 10
    else if 'A' <= c <= 'F' then c as int - 'A' as int + 10
    else 0
  }

  /** The longest prefix of `s` made of digits of the radix. */
  function DigitPrefix(s: string, radix: nat): (ds: string)
    ensures |ds| <= |s| && ds == s[..|ds|]
    ensures forall i :: 0 <= i < |ds| ==> IsDigit(ds[i], radix)
    ensures |ds| < |s| ==> !IsDigit(s[|ds|], radix)
  {
    if s != [] && IsDigit(s[0], radix) then [s[0]] + DigitPrefix(s[1..], radix) else []
  }

  /** The number a digit string denotes, most significant digit first. */
  function DigitsValue(ds: string, radix: nat): nat
    requires radix == 10 || radix == 16
  {
    if ds == [] then 0
    else
      var high := DigitsValue(ds[..|ds| - 1], radix);
      (if radix == 16 then high * 16 else high * 10) + DigitValue(ds[|ds| - 1])
  }

  /** The unsigned part of `parseInt`: the radix is 16 after a `0x`/`0X`
      prefix and 10 otherwise; the longest digit prefix is read and the rest
      ignored. None when there is no digit. */
  function ParseDigits(u: string): Option<nat> {
    var hex := |u| >= 2 && u[0] == '0' && (u[1] == 'x' || u[1] == 'X');
    var radix := if hex then 16 else 10;
    var ds := DigitPrefix(if hex then u[2..] else u, radix);
    if ds == [] then None else Some(DigitsValue(ds, radix))
  }

  /** `parseInt(s)`: leading white space is skipped, then the signed number
      is read; None stands for NaN. */
  function ParseInt(s: string): Option<int> {
    ParseSigned(TrimStart(s))
  }

  /** An optional sign, then the unsigned part. */
  function ParseSigned(t: string): Option<int> {
    if t != [] && t[0] == '-' then
      (match ParseDigits(t[1..]) case None => None case Some(v) => Some(-(v as int)))
    else if t != [] && t[0] == '+' then
      (match ParseDigits(t[1..]) case None => None case Some(v) => Some(v as int))
    else
      (match ParseDigits(t) case None => None case Some(v) => Some(v as int))
  }

  /** The decimal rendering of a natural number, as `String(n)` gives it. */
  function ShowNat(n: nat): (s: string)
    ensures s != []
    ensures forall i :: 0 <= i < |s| ==> IsDecimalDigit(s[i])
    ensures n > 0 ==> s[0] != '0'
    ensures n == 0 ==> s == "0"
  {
    if n < 10 then [('0' as int + n) as char] else ShowNat(n / 10) + [('0' as int + n % 10) as char]
  }

  lemma {:induction false} DigitsValueOfShowNat(n: nat)
    ensures DigitsValue(ShowNat(n), 10) == n
  {
    if n >= 10 {
      var s := ShowNat(n);
      assert s[..|s| - 1] == ShowNat(n / 10);
      DigitsValueOfShowNat(n / 10);
    }
  }

  lemma {:induction false} DigitPrefixStopsAtNonDigit(ds: string, rest: string, radix: nat)
    requires forall i :: 0 <= i < |ds| ==> IsDigit(ds[i], radix)
    requires rest == [] || !IsDigit(rest[0], radix)
    ensures DigitPrefix(ds + rest, radix) == ds
  {
    if ds != [] {
      assert (ds + rest)[1..] == ds[1..] + rest;
      DigitPrefixStopsAtNonDigit(ds[1..], rest, radix);
    }
  }

  /** The digits of any natural number's decimal rendering read back as
      that number, up to the first character that cannot continue them. */
  lemma ParseDigitsShowNat(n: nat, rest: string)
    requires rest == [] || (!IsDecimalDigit(rest[0]) && (n > 0 || (rest[0] != 'x' && rest[0] != 'X')))
    ensures ParseDigits(ShowNat(n) + rest) == Some(n)
  {
    var u := ShowNat(n) + rest;
    assert u[0] == ShowNat(n)[0];
    if |ShowNat(n)| == 1 {
      assert |u| >= 2 ==> u[1] == rest[0];
    } else {
      assert u[1] == ShowNat(n)[1];
    }
    DigitPrefixStopsAtNonDigit(ShowNat(n), rest, 10);
    DigitsValueOfShowNat(n);
  }

  /** `parseInt` reads back the decimal rendering of any natural number,
      and stops at the first character that cannot continue it ("12abc" and
      "5x" read 12 and 5). Only after a lone "0" does an `x` or `X` start a
      hexadecimal number instead. */
  lemma ParseIntShowNat(n: nat, rest: string)
    requires rest == [] || (!IsDecimalDigit(rest[0]) && (n > 0 || (rest[0] != 'x' && rest[0] != 'X')))
    ensures ParseInt(ShowNat(n) + rest) == Some(n)
  {
    var s := ShowNat(n) + rest;
    assert s[0] == ShowNat(n)[0];
    assert !IsSpace(s[0]);
    assert TrimStart(s) == s;
    ParseDigitsShowNat(n, rest);
  }

  /** A leading minus sign negates what follows it. */
  lemma ParseIntNegative(n: nat)
    ensures ParseInt("-" + ShowNat(n)) == Some(-(n as int))
  {
    var s := "-" + ShowNat(n);
    assert TrimStart(s) == s;
    assert s[1..] == ShowNat(n) + [];
    ParseDigitsShowNat(n, []);
  }

  /** A string that starts with neither a digit, a sign nor white space is NaN. */
  lemma ParseIntNaN(s: string)
    requires s != [] && !IsDecimalDigit(s[0]) && !IsSpace(s[0]) && s[0] != '-' && s[0] != '+'
    ensures ParseInt(s) == None
  {
    assert TrimStart(s) == s;
  }

  /** White space in front of the number does not change what it parses
      as; `parseInt("\u30003")` is 3. */
  lemma ParseIntSkipsSpace(c: char, s: string)
    requires IsSpace(c)
    ensures ParseInt([c] + s) == ParseInt(s)
  {
    var t := [c] + s;
    assert t[0] == c && t[1..] == s;
    assert TrimStart(t) == TrimStart(s);
  }

  // ---------------------------------------------------------------------------
  // toLowerCase, split and join
  // ---------------------------------------------------------------------------

  predicate IsUpper(c: char) {
    'A' <= c <= 'Z'
  }

  function LowerChar(c: char): (r: char)
    ensures !IsUpper(r)
    ensures !IsUpper(c) ==> r == c
  {
    if IsUpper(c) then (c as int + 32) as char else c
  }

  /** `s.toLowerCase()` restricted to the ASCII letters. */
  function ToLowerCase(s: string): (r: string)
    ensures |r| == |s|
    ensures forall i :: 0 <= i < |s| ==> r[i] == LowerChar(s[i])
  {
    if s == [] then [] else [LowerChar(s[0])] + ToLowerCase(s[1..])
  }

  /** `s.split(sep)` for a one-character separator: the pieces between the
      separators, in order; there is always at least one piece. */
  function Split(s: string, sep: char): (parts: seq<string>)
    ensures |parts| >= 1
    ensures forall k :: 0 <= k < |parts| ==> sep !in parts[k]
  {
    if s == [] then [[]]
    else
      var rest := Split(s[1..], sep);
      if s[0] == sep then [[]] + rest
      else [[s[0]] + rest[0]] + rest[1..]
  }

  /** `parts.join(sep)`. */
  function Join(parts: seq<string>, sep: string): string
    requires |parts| >= 1
  {
    if |parts| == 1 then parts[0] else parts[0] + sep + Join(parts[1..], sep)
  }

  /** Every occurrence of `from` replaced by `to`, character by character. */
  function ReplaceChar(s: string, from: char, to: char): (r: string)
    ensures |r| == |s|
  {
    seq(|s|, i requires 0 <= i < |s| => if s[i] == from then to else s[i])
  }

  lemma JoinPrefixFirst(p: string, parts: seq<string>, sep: string)
    requires |parts| >= 1
    ensures Join([p + parts[0]] + parts[1..], sep) == p + Join(parts, sep)
  {
    var q := [p + parts[0]] + parts[1..];
    if |parts| > 1 {
      assert q[1..] == parts[1..];
    }
  }

  /** `s.split(from).join(to)` replaces each single occurrence of `from` by `to`. */
  lemma {:induction false} JoinSplitReplaces(s: string, from: char, to: char)
    ensures Join(Split(s, from), [to]) == ReplaceChar(s, from, to)
  {
    if s != [] {
      var rest := Split(s[1..], from);
      JoinSplitReplaces(s[1..], from, to);
      assert ReplaceChar(s, from, to) == [ReplaceChar(s, from, to)[0]] + ReplaceChar(s[1..], from, to);
      if s[0] == from {
        assert ([[]] + rest)[1..] == rest;
      } else {
        JoinPrefixFirst([s[0]], rest, [to]);
      }
    }
  }

  /** `xs.pop()` read for its result: the last element. */
  function Last<X>(xs: seq<X>): X
    requires xs != []
  {
    xs[|xs| - 1]
  }

  lemma {:induction false} SplitWithoutSeparator(s: string, sep: char)
    requires sep !in s
    ensures Split(s, sep) == [s]
  {
    if s != [] {
      SplitWithoutSeparator(s[1..], sep);
      assert [s[0]] + s[1..] == s;
    }
  }

  lemma {:induction false} SplitAtSeparator(s: string, sep: char)
    requires sep in s
    ensures |Split(s, sep)| >= 2
  {
    if s[0] != sep {
      SplitAtSeparator(s[1..], sep);
    }
  }

  /** Text in front of the last separator does not change the last piece. */
  lemma {:induction false} SplitKeepsLastPiece(a: string, t: string, sep: char)
    requires sep in t
    ensures |Split(a + t, sep)| >= 2
    ensures Last(Split(a + t, sep)) == Last(Split(t, sep))
  {
    if a == [] {
      assert a + t == t;
      SplitAtSeparator(t, sep);
    } else {
      assert (a + t)[1..] == a[1..] + t;
      SplitKeepsLastPiece(a[1..], t, sep);
    }
  }

  /** `(a + sep + b).split(sep).pop()` is `b` when `b` holds no separator. */
  lemma LastPieceAfterSeparator(a: string, b: string, sep: char)
    requires sep !in b
    ensures Last(Split(a + [sep] + b, sep)) == b
  {
    assert a + [sep] + b == a + ([sep] + b);
    SplitKeepsLastPiece(a, [sep] + b, sep);
    assert ([sep] + b)[1..] == b;
    SplitWithoutSeparator(b, sep);
  }
}

=== FILE: multijobs.dfy ===
/** The Multijobs schema and the `/api/multijobs` handlers. A multijobs
    post has no deadline, so it takes no part in the active/archived split;
    its slug comes from the title alone. `slugify` is a parameter. */
module Multijobs {
  import opened Outcomes
  import opened JsText
  import opened Store
  import opened Handlers
  import Access

  /** A saved post. Both timestamps are set by the timestamps plugin. */
  datatype Multijob = Multijob(
    title: string,
    markdown: string,
    createdAt: int,
    updatedAt: int,
    slug: string,
    creator: Option<Id>)

  /** A post before validation; `None` for `undefined`. */
  datatype MultijobDraft = MultijobDraft(
    title: Option<string>,
    markdown: Option<string>,
    slug: Option<string>,
    creator: Option<Id>)

  /** The pre-validate hook: a truthy title gives the slug; otherwise the
      slug is left as it was. */
  function PreValidate(d: MultijobDraft, slugify: string -> string): (r: MultijobDraft)
    ensures Truthy(d.title) ==> r.slug == Some(slugify(d.title.value))
    ensures !Truthy(d.title) ==> r.slug == d.slug
    ensures r == d.(slug := r.slug)
  {
    if Truthy(d.title) then d.(slug := Some(slugify(d.title.value))) else d
  }

  /** The required paths that fail, in schema order. */
  function MultijobFailingPaths(d: MultijobDraft): seq<string> {
    (if Truthy(d.title) then [] else ["title"])
    + (if Truthy(d.markdown) then [] else ["markdown"])
    + (if Truthy(d.slug) then [] else ["slug"])
  }

  /** `validate()`: the post the draft describes, with both timestamps
      `now`, or the failing required paths. */
  function ValidateMultijob(d: MultijobDraft, now: int): (r: Result<Multijob>)
    ensures r.Err? <==> !(Truthy(d.title) && Truthy(d.markdown) && Truthy(d.slug))
    ensures r.Err? ==> r.error == ValidationFailed(MultijobFailingPaths(d))
    ensures r.Ok? ==>
              && r.value.title == d.title.value && r.value.markdown == d.markdown.value
              && r.value.slug == d.slug.value && r.value.slug != ""
              && r.value.creator == d.creator
              && r.value.createdAt == now && r.value.updatedAt == now
  {
    var failing := MultijobFailingPaths(d);
    if failing != [] then Err(ValidationFailed(failing))
    else Ok(Multijob(d.title.value, d.markdown.value, now, now, d.slug.value, d.creator))
  }

  /** Without a title the hook sets no slug, and validation fails on both. */
  lemma NoTitleNoSlug(d: MultijobDraft, slugify: string -> string, now: int)
    requires !Truthy(d.title) && d.slug.None?
    ensures var r := ValidateMultijob(PreValidate(d, slugify), now);
            r.Err? && "title" in r.error.paths && "slug" in r.error.paths
  {
    var p := PreValidate(d, slugify);
    var failing := MultijobFailingPaths(p);
    assert failing[0] == "title";
    assert failing[|failing| - 1] == "slug";
  }

  /** The value the unique index on `slug` reads. */
  function SlugOf(m: Multijob): string {
    m.slug
  }

  /** The unique index on `slug`. */
  const SLUG_INDEX: Index<Multijob> := Index("slug", SlugOf)

  /** No two posts share a slug. */
  predicate UniqueSlugs(c: seq<Doc<Multijob>>) {
    UniqueBy(c, SlugOf)
  }

  predicate SlugTaken(c: seq<Doc<Multijob>>, slug: string) {
    exists d :: d in c && d.body.slug == slug
  }

  /** The sort key `createdAt`. */
  function CreatedAt(d: Doc<Multijob>): int {
    d.body.createdAt
  }

  /** GET /: every post, newest first. The route sorts on `createdAt`
      twice, which orders the same way as sorting once. */
  function ListAll(c: seq<Doc<Multijob>>): (docs: seq<Doc<Multijob>>)
    ensures multiset(docs) == multiset(c)
    ensures SortedDesc(docs, CreatedAt)
  {
    SortDesc(c, CreatedAt)
  }

  /** The fields of a create request. */
  datatype MultijobForm = MultijobForm(title: Option<string>, markdown: Option<string>, creator: Option<Id>)

  /** The answer to a successful create: the saved fields, slug included. */
  datatype MultijobReply = MultijobReply(id: Id, title: string, markdown: string, creator: Option<Id>, slug: string)

  /** A successful create: the collection after the insert and the answer. */
  datatype CreatedMultijob = CreatedMultijob(store: seq<Doc<Multijob>>, reply: MultijobReply)

  /** POST /, open to anyone: title and markdown, then the schema (the
      slug is made from the title), then the unique indexes. */
  function Create(c: seq<Doc<Multijob>>, f: MultijobForm, newId: Id, now: int, slugify: string -> string)
    : (res: Result<CreatedMultijob>)
    ensures res != Err(Forbidden)
    ensures !(Truthy(f.title) && Truthy(f.markdown)) <==> res == Err(Rejected(MISSING_INFO))
    ensures Truthy(f.title) && Truthy(f.markdown) ==>
              (res == Err(ValidationFailed(["slug"])) <==> slugify(f.title.value) == "")
    ensures Truthy(f.title) && Truthy(f.markdown) && slugify(f.title.value) != "" ==>
              (res.Ok? <==> !HasId(c, newId) && !SlugTaken(c, slugify(f.title.value)))
    ensures res.Ok? ==>
              && res.value.reply == MultijobReply(newId, f.title.value, f.markdown.value, f.creator, slugify(f.title.value))
              && res.value.store == c + [Doc(newId, Multijob(f.title.value, f.markdown.value, now, now, slugify(f.title.value), f.creator))]
    ensures res.Ok? && UniqueSlugs(c) ==> UniqueSlugs(res.value.store)
    ensures res.Ok? && DistinctIds(c) ==> DistinctIds(res.value.store)
  {
    assert Access.Permits(Access.Route(Access.Multijobs, Access.Create), Access.Anonymous);
    if !Truthy(f.title) || !Truthy(f.markdown) then Err(Rejected(MISSING_INFO))
    else
      var draft := PreValidate(MultijobDraft(f.title, f.markdown, None, f.creator), slugify);
      var checked := ValidateMultijob(draft, now);
      if checked.Err? then Err(checked.error)
      else if HasId(c, newId) then Err(DuplicateKey("_id"))
      else if SlugTaken(c, checked.value.slug) then Err(DuplicateKey("slug"))
      else
        var saved := Doc(newId, checked.value);
        assert forall d :: d in c ==> d.id != newId && d.body.slug != saved.body.slug;
        Ok(CreatedMultijob(c + [saved], MultijobReply(newId, saved.body.title, saved.body.markdown, saved.body.creator, saved.body.slug)))
  }

  /** Two posts with the same title collide on the slug index. */
  lemma SameTitleCollides(c: seq<Doc<Multijob>>, f: MultijobForm, newId: Id, now: int,
                          f2: MultijobForm, newId2: Id, now2: int, slugify: string -> string)
    requires Create(c, f, newId, now, slugify).Ok?
    requires f2.title == f.title && Truthy(f2.markdown) && newId2 != newId && !HasId(c, newId2)
    ensures var c2 := Create(c, f, newId, now, slugify).value.store;
            Create(c2, f2, newId2, now2, slugify) == Err(DuplicateKey("slug"))
  {
    var c2 := Create(c, f, newId, now, slugify).value.store;
    var saved := c2[|c2| - 1];
    assert saved in c2;
    assert SlugTaken(c2, slugify(f.title.value));
    assert !HasId(c2, newId2) by {
      forall d | d in c2 ensures d.id != newId2 {
        if d != saved {
          assert d in c;
        }
      }
    }
  }

  /** PUT /:id, for a Creator or an Admin. An update that gives the post
      the slug of another one is refused by the unique index, and nothing
      changes. */
  function Update(c: seq<Doc<Multijob>>, caller: Access.Caller, id: Id, patch: Multijob -> Multijob)
    : (res: Result<(seq<Doc<Multijob>>, Option<Multijob>)>)
    ensures !(caller.SignedIn? && caller.role in ["Creator", "Admin"]) <==> res == Err(Forbidden)
    ensures caller.SignedIn? && caller.role in ["Creator", "Admin"] && HasId(c, id)
            && Collides(c, id, SlugOf, patch(FindById(c, id).value)) ==>
              res == Err(DuplicateKey("slug"))
    ensures caller.SignedIn? && caller.role in ["Creator", "Admin"]
            && !(HasId(c, id) && Collides(c, id, SlugOf, patch(FindById(c, id).value))) ==>
              res.Ok?
    ensures res.Ok? ==> (res.value.1.None? <==> !HasId(c, id))
    ensures res.Ok? && !HasId(c, id) ==> res.value.0 == c
    ensures res.Ok? && HasId(c, id) ==> res.value.1 == Some(patch(FindById(c, id).value))
    ensures res.Ok? ==> |res.value.0| == |c| && forall i :: 0 <= i < |c| && c[i].id != id ==> res.value.0[i] == c[i]
    ensures res.Ok? && DistinctIds(c) ==> FindById(res.value.0, id) == res.value.1
    ensures res.Ok? && DistinctIds(c) && UniqueSlugs(c) ==> UniqueSlugs(res.value.0)
  {
    Access.CreatorOrAdminGate(Access.Route(Access.Multijobs, Access.Update), caller);
    GuardedUpdate(Access.Route(Access.Multijobs, Access.Update), c, caller, id, patch, Some(SLUG_INDEX))
  }

  const NOT_FOUND: string := "Multijobs is not found!"

  /** DELETE /:id, for a Creator or an Admin. A successful delete sends no response. */
  function Delete(c: seq<Doc<Multijob>>, caller: Access.Caller, id: Id): (res: Result<Deleted<Multijob>>)
    ensures !(caller.SignedIn? && caller.role in ["Creator", "Admin"]) <==> res == Err(Forbidden)
    ensures caller.SignedIn? && caller.role in ["Creator", "Admin"] && !HasId(c, id) <==> res == Err(Rejected(NOT_FOUND))
    ensures caller.SignedIn? && caller.role in ["Creator", "Admin"] && HasId(c, id) ==> res.Ok?
    ensures res.Ok? ==> res.value.reply.None?
    ensures res.Ok? ==> forall d :: d in res.value.store <==> d in c && d.id != id
    ensures res.Ok? && DistinctIds(c) ==> |res.value.store| == |c| - 1
  {
    Access.CreatorOrAdminGate(Access.Route(Access.Multijobs, Access.Delete), caller);
    GuardedDelete(Access.Route(Access.Multijobs, Access.Delete), c, caller, id, NOT_FOUND, None)
  }
}

=== FILE: outcomes.dfy ===
/** Optional values and handler outcomes shared by every route module.

    Every route handler of the backend either answers with a value (HTTP 200)
    or with a failure; the failures are the few kinds the handlers and the
    schema layer can produce. */
module Outcomes {

  /** An optional value: a request field that may be absent, a record that may not exist. */
  datatype Option<+T> = None | Some(value: T) {

    /** The value, or `default` when absent (a schema default). */
    function GetOr(default: T): T {
      match this
      case Some(v) => v
      case None => default
    }
  }

  /** What a handler can fail with. */
  datatype Error =
    | Forbidden                          // the role gate in front of the handler refused the caller
    | Rejected(msg: string)              // a handler's own message, answered with status 400
    | ValidationFailed(paths: seq<string>) // schema validation: the failing paths in schema order
    | DuplicateKey(path: string)         // a unique index refused the insert
    | FileTooLarge                       // the upload middleware's size limit
    | TooManyFiles(field: string)        // the upload middleware's file-count limit on a field
    | TypeError(property: string)        // a property read on null/undefined inside the handler

  /** A handler's answer: a value (status 200) or an error (status 400 or the gate's refusal). */
  datatype Result<+T> = Ok(value: T) | Err(error: Error)
}

=== FILE: pagination.dfy ===
/** The pagination arithmetic shared by the listing routes.

    A listing route reads `pageNo` from the query string with
    `parseInt(req.query.pageNo || "0")`. A positive page number selects the
    window `skip = PAGE_SIZE * (pageNo - 1)`, `limit = PAGE_SIZE`; zero, a
    negative number or NaN selects the whole unpaginated listing. The page
    count reported next to it is `Math.ceil(countDocuments({}) / PAGE_SIZE)`. */
module Pagination {
  import opened Outcomes
  import opened JsText
  import opened Store

  /** Page size of `/api/items/pagination`. */
  const ITEMS_PAGE_SIZE: nat := 18
  /** Page size of the category, sub-category and archive listings. */
  const LISTING_PAGE_SIZE: nat := 12

  /** `parseInt(req.query.pageNo || "0")`; None stands for NaN. */
  function PageNo(query: Option<string>): (n: Option<int>)
    ensures !Truthy(query) ==> n == Some(0)
  {
    ParseIntShowNat(0, []);
    assert ShowNat(0) + [] == "0";
    ParseInt(if Truthy(query) then query.value else "0")
  }

  /** `pageNo > 0`: false for NaN, zero and negative numbers. */
  predicate Paginated(pageNo: Option<int>) {
    pageNo.Some? && pageNo.value > 0
  }

  /** `PAGE_SIZE * (pageNo - 1)`, the documents before page `pageNo`. */
  function Skip(pageSize: nat, pageNo: int): nat
    requires pageNo > 0
  {
    pageSize * (pageNo - 1)
  }

  /** Page `pageNo` of an already filtered and sorted listing. */
  function PageOf<E>(s: seq<E>, pageSize: nat, pageNo: int): (r: seq<E>)
    requires pageNo > 0
    ensures |r| <= pageSize
    ensures forall i :: 0 <= i < |r| ==> pageSize * (pageNo - 1) + i < |s| && r[i] == s[pageSize * (pageNo - 1) + i]
    ensures forall x :: x in r ==> x in s
  {
    Window(s, Skip(pageSize, pageNo), pageSize)
  }

  /** `Math.ceil(count / pageSize)`: the fewest pages of `pageSize` that hold `count` documents. */
  function TotalPages(count: nat, pageSize: nat): (r: nat)
    requires pageSize > 0
    ensures r * pageSize >= count
    ensures r == 0 || (r - 1) * pageSize < count
  {
    var r := (count + pageSize - 1) / pageSize;
    assert r * pageSize <= count + pageSize - 1 < (r + 1) * pageSize;
    r
  }

  /** An absent or empty `pageNo` asks for the unpaginated listing. */
  lemma MissingPageNoIsUnpaginated(query: Option<string>)
    requires !Truthy(query)
    ensures !Paginated(PageNo(query))
  {
  }

  /** `?pageNo=n` with the decimal digits of a positive `n` selects page `n`. */
  lemma DecimalPageNo(n: nat)
    requires n > 0
    ensures PageNo(Some(ShowNat(n))) == Some(n)
    ensures Paginated(PageNo(Some(ShowNat(n))))
  {
    ParseIntShowNat(n, []);
    assert ShowNat(n) + [] == ShowNat(n);
  }

  /** Every position of a listing lies on page `i / pageSize + 1`, at offset `i % pageSize`,
      and that page is within the reported page count: the pages cover the listing. */
  lemma PageCover<E>(s: seq<E>, pageSize: nat, i: nat)
    requires pageSize > 0 && i < |s|
    ensures var n := i / pageSize + 1;
            && n <= TotalPages(|s|, pageSize)
            && i % pageSize < |PageOf(s, pageSize, n)|
            && PageOf(s, pageSize, n)[i % pageSize] == s[i]
  {
    var n := i / pageSize + 1;
    assert pageSize * (n - 1) + i % pageSize == i;
    var t := TotalPages(|s|, pageSize);
    if n > t {
      MulLe(pageSize, t, n - 1);
      assert false;
    }
  }

  /** A page past the last one is empty; the request still succeeds. */
  lemma PageBeyondLastIsEmpty<E>(s: seq<E>, pageSize: nat, pageNo: int)
    requires pageSize > 0 && pageNo > TotalPages(|s|, pageSize)
    ensures PageOf(s, pageSize, pageNo) == []
  {
    var t := TotalPages(|s|, pageSize);
    assert pageSize * (pageNo - 1) >= pageSize * t;
  }

  /** Pages before the last are full, and the last page is not empty. */
  lemma PagesBeforeLastAreFull<E>(s: seq<E>, pageSize: nat, pageNo: int)
    requires pageSize > 0 && 0 < pageNo <= TotalPages(|s|, pageSize)
    ensures pageNo < TotalPages(|s|, pageSize) ==> |PageOf(s, pageSize, pageNo)| == pageSize
    ensures |PageOf(s, pageSize, pageNo)| > 0
  {
    var t := TotalPages(|s|, pageSize);
    MulLe(pageSize, pageNo - 1, t - 1);
    assert pageSize * (t - 1) < |s|;
    if pageNo < t {
      MulLe(pageSize, pageNo, t - 1);
      assert Skip(pageSize, pageNo) + pageSize == pageSize * pageNo;
    }
  }

  /** Multiplying by a natural number keeps the order. */
  lemma MulLe(a: nat, b: int, c: int)
    requires b <= c
    ensures a * b <= a * c
  {
    assert a * c - a * b == a * (c - b);
  }

  /** 100 documents in pages of 12: nine pages, the ninth holding the last four,
      the tenth empty while nine pages are still reported. */
  lemma HundredInTwelves<E>(s: seq<E>)
    requires |s| == 100
    ensures TotalPages(|s|, LISTING_PAGE_SIZE) == 9
    ensures PageOf(s, LISTING_PAGE_SIZE, 1) == s[..12]
    ensures PageOf(s, LISTING_PAGE_SIZE, 9) == s[96..]
    ensures PageOf(s, LISTING_PAGE_SIZE, 10) == []
  {
  }

  /** 25 items in pages of 18: `?pageNo=2` answers the last 7 items and two pages. */
  lemma TwentyFiveItems<E>(s: seq<E>)
    requires |s| == 25
    ensures TotalPages(|s|, ITEMS_PAGE_SIZE) == 2
    ensures PageOf(s, ITEMS_PAGE_SIZE, 2) == s[18..]
    ensures |PageOf(s, ITEMS_PAGE_SIZE, 2)| == 7
  {
  }
}

=== FILE: posting_routes.dfy ===
/** The route handlers of `/api/jobs` and `/api/scholarships`.

    The two routers are the same code over two collections; they differ in
    the gate of `POST /` and in the not-found message of `DELETE /:id`.
    A router value carries the `yesterday` cutoff fixed when it was loaded:
    no handler reads the clock, so every request is partitioned against
    that one instant. The storage calls of the delete handler and the
    generation of ObjectIds are outside this model; a new document's id is
    a parameter. */
module PostingRoutes {
  import opened Outcomes
  import opened JsText
  import opened Store
  import opened Pagination
  import opened Deadlines
  import Access
  import opened Upload
  import opened Postings
  import opened Handlers

  /** A loaded router: which collection it serves and its `yesterday`. */
  datatype Router = Router(kind: Kind, yesterday: int)

  /** Loading the router module at `loadTime` fixes the cutoff once. */
  function Load(kind: Kind, loadTime: int): (r: Router)
    ensures r.kind == kind
    ensures r.yesterday + 86_400_000 == loadTime
  {
    Router(kind, Yesterday(loadTime))
  }

  function ResourceOf(k: Kind): Access.Resource {
    match k
    case JobKind => Access.Jobs
    case ScholarshipKind => Access.Scholarships
  }

  /** The gate of the router's route for `action` lets the caller through. */
  predicate MayCall(k: Kind, action: Access.Action, caller: Access.Caller) {
    Access.Permits(Access.Route(ResourceOf(k), action), caller)
  }

  function NotFoundMessage(k: Kind): string {
    match k
    case JobKind => "Job is not found!"
    case ScholarshipKind => "Scholarship is not found!"
  }

  /** The sort key `createdAt`. */
  function CreatedAt(d: Doc<Posting>): int {
    d.body.createdAt
  }

  function ActiveFilter(cutoff: int): Doc<Posting> -> bool {
    (d: Doc<Posting>) => Active(d.body.deadline, cutoff)
  }

  function CategoryFilter(cutoff: int, id: Id): Doc<Posting> -> bool {
    (d: Doc<Posting>) => d.body.category == id && Active(d.body.deadline, cutoff)
  }

  function SubCategoryFilter(cutoff: int, id: string): Doc<Posting> -> bool {
    (d: Doc<Posting>) => d.body.subCategory == id && Active(d.body.deadline, cutoff)
  }

  function ArchivedOnPageFilter(cutoff: int): Doc<Posting> -> bool {
    (d: Doc<Posting>) => ArchivedOnPage(d.body.deadline, cutoff)
  }

  function ArchivedUnpagedFilter(cutoff: int): Doc<Posting> -> bool {
    (d: Doc<Posting>) => ArchivedUnpaged(d.body.deadline, cutoff)
  }

  /** A listing with its page count. */
  datatype Listing = Listing(totalPages: nat, docs: seq<Doc<Posting>>)

  /** `find().sort({ createdAt: -1 })`, the query every listing ends in. */
  function Newest(c: seq<Doc<Posting>>, p: Doc<Posting> -> bool): (docs: seq<Doc<Posting>>)
    ensures forall d :: d in docs <==> d in c && p(d)
    ensures SortedDesc(docs, CreatedAt)
    ensures multiset(docs) == multiset(Where(c, p))
  {
    var w := Where(c, p);
    var docs := SortDesc(w, CreatedAt);
    assert forall d :: d in docs <==> d in multiset(w);
    docs
  }

  lemma PageKeepsOrder(s: seq<Doc<Posting>>, pageNo: int)
    requires pageNo > 0 && SortedDesc(s, CreatedAt)
    ensures SortedDesc(PageOf(s, LISTING_PAGE_SIZE, pageNo), CreatedAt)
    ensures forall d :: d in PageOf(s, LISTING_PAGE_SIZE, pageNo) ==> d in s
  {
    WindowKeepsSortedDesc(s, Skip(LISTING_PAGE_SIZE, pageNo), LISTING_PAGE_SIZE, CreatedAt);
  }

  /** GET /: every posting, newest first. */
  function ListAll(c: seq<Doc<Posting>>): (docs: seq<Doc<Posting>>)
    ensures multiset(docs) == multiset(c)
    ensures SortedDesc(docs, CreatedAt)
  {
    SortDesc(c, CreatedAt)
  }

  /** GET /activeJobs and /activeScholarships. */
  function ActiveListing(r: Router, c: seq<Doc<Posting>>): (docs: seq<Doc<Posting>>)
    ensures forall d :: d in docs <==> d in c && d.body.deadline > r.yesterday
    ensures SortedDesc(docs, CreatedAt)
  {
    Newest(c, ActiveFilter(r.yesterday))
  }

  /** GET /category/:id. A positive page number selects one page of the
      active postings of the category; otherwise the id is ignored and every
      active posting is answered. The page count is always that of the
      whole collection. */
  function ByCategory(r: Router, c: seq<Doc<Posting>>, id: Id, pageNoQuery: Option<string>): (reply: Listing)
    ensures reply.totalPages == TotalPages(|c|, LISTING_PAGE_SIZE)
    ensures SortedDesc(reply.docs, CreatedAt)
    ensures !Paginated(PageNo(pageNoQuery)) ==> reply.docs == ActiveListing(r, c)
    ensures Paginated(PageNo(pageNoQuery)) ==>
              && |reply.docs| <= LISTING_PAGE_SIZE
              && reply.docs == PageOf(Newest(c, CategoryFilter(r.yesterday, id)), LISTING_PAGE_SIZE, PageNo(pageNoQuery).value)
              && forall d :: d in reply.docs ==> d in c && d.body.category == id && d.body.deadline > r.yesterday
  {
    var pageNo := PageNo(pageNoQuery);
    var total := TotalPages(|c|, LISTING_PAGE_SIZE);
    if Paginated(pageNo) then
      var all := Newest(c, CategoryFilter(r.yesterday, id));
      PageKeepsOrder(all, pageNo.value);
      Listing(total, PageOf(all, LISTING_PAGE_SIZE, pageNo.value))
    else
      Listing(total, ActiveListing(r, c))
  }

  /** GET /sub-category/:id, the same as the category route on `sub_category`. */
  function BySubCategory(r: Router, c: seq<Doc<Posting>>, id: string, pageNoQuery: Option<string>): (reply: Listing)
    ensures reply.totalPages == TotalPages(|c|, LISTING_PAGE_SIZE)
    ensures SortedDesc(reply.docs, CreatedAt)
    ensures !Paginated(PageNo(pageNoQuery)) ==> reply.docs == ActiveListing(r, c)
    ensures Paginated(PageNo(pageNoQuery)) ==>
              && |reply.docs| <= LISTING_PAGE_SIZE
              && reply.docs == PageOf(Newest(c, SubCategoryFilter(r.yesterday, id)), LISTING_PAGE_SIZE, PageNo(pageNoQuery).value)
              && forall d :: d in reply.docs ==> d in c && d.body.subCategory == id && d.body.deadline > r.yesterday
  {
    var pageNo := PageNo(pageNoQuery);
    var total := TotalPages(|c|, LISTING_PAGE_SIZE);
    if Paginated(pageNo) then
      var all := Newest(c, SubCategoryFilter(r.yesterday, id));
      PageKeepsOrder(all, pageNo.value);
      Listing(total, PageOf(all, LISTING_PAGE_SIZE, pageNo.value))
    else
      Listing(total, ActiveListing(r, c))
  }

  /** GET /archives. A page holds postings whose deadline is strictly before
      the cutoff; the unpaginated archive also holds those due exactly at it. */
  function Archives(r: Router, c: seq<Doc<Posting>>, pageNoQuery: Option<string>): (reply: Listing)
    ensures reply.totalPages == TotalPages(|c|, LISTING_PAGE_SIZE)
    ensures SortedDesc(reply.docs, CreatedAt)
    ensures !Paginated(PageNo(pageNoQuery)) ==>
              forall d :: d in reply.docs <==> d in c && d.body.deadline <= r.yesterday
    ensures Paginated(PageNo(pageNoQuery)) ==>
              && |reply.docs| <= LISTING_PAGE_SIZE
              && reply.docs == PageOf(Newest(c, ArchivedOnPageFilter(r.yesterday)), LISTING_PAGE_SIZE, PageNo(pageNoQuery).value)
              && forall d :: d in reply.docs ==> d in c && d.body.deadline < r.yesterday
  {
    var pageNo := PageNo(pageNoQuery);
    var total := TotalPages(|c|, LISTING_PAGE_SIZE);
    if Paginated(pageNo) then
      var all := Newest(c, ArchivedOnPageFilter(r.yesterday));
      PageKeepsOrder(all, pageNo.value);
      Listing(total, PageOf(all, LISTING_PAGE_SIZE, pageNo.value))
    else
      Listing(total, Newest(c, ArchivedUnpagedFilter(r.yesterday)))
  }

  /** The active listing and the unpaginated archive split the collection:
      every posting is in exactly one of them. */
  lemma ActiveAndArchivePartition(r: Router, c: seq<Doc<Posting>>)
    ensures multiset(ActiveListing(r, c)) + multiset(Archives(r, c, None).docs) == multiset(c)
  {
    WherePartition(c, ActiveFilter(r.yesterday), ArchivedUnpagedFilter(r.yesterday));
  }

  /** A posting due exactly at the cutoff is neither active nor on any page
      of the archive, yet it is in the unpaginated archive. */
  lemma DueAtCutoff(r: Router, c: seq<Doc<Posting>>, d: Doc<Posting>, id: Id, pageNoQuery: Option<string>)
    requires d in c && d.body.deadline == r.yesterday
    ensures d !in ActiveListing(r, c)
    ensures d !in ByCategory(r, c, id, pageNoQuery).docs
    ensures d !in BySubCategory(r, c, id, pageNoQuery).docs
    ensures d in Archives(r, c, None).docs
    ensures Paginated(PageNo(pageNoQuery)) ==> d !in Archives(r, c, pageNoQuery).docs
  {
    MissingPageNoIsUnpaginated(None);
    assert !Active(d.body.deadline, r.yesterday) && !ArchivedOnPage(d.body.deadline, r.yesterday);
    assert ArchivedUnpaged(d.body.deadline, r.yesterday);
  }

  /** Every active posting of a category is reachable: it is on page `n` of
      the category route for some `n` within the page count of the category,
      asked for as `?pageNo=n`. */
  lemma CategoryPagesCover(r: Router, c: seq<Doc<Posting>>, id: Id, d: Doc<Posting>)
    requires d in c && d.body.category == id && d.body.deadline > r.yesterday
    ensures exists n: nat :: 0 < n <= TotalPages(|Newest(c, CategoryFilter(r.yesterday, id))|, LISTING_PAGE_SIZE)
                           && d in ByCategory(r, c, id, Some(ShowNat(n))).docs
  {
    var all := Newest(c, CategoryFilter(r.yesterday, id));
    assert d in all;
    var i :| 0 <= i < |all| && all[i] == d;
    var n := i / LISTING_PAGE_SIZE + 1;
    PageCover(all, LISTING_PAGE_SIZE, i);
    DecimalPageNo(n);
    assert ByCategory(r, c, id, Some(ShowNat(n))).docs == PageOf(all, LISTING_PAGE_SIZE, n);
  }

  /** The text fields of a create request; `None` for a field not sent. */
  datatype Form = Form(
    title: Option<string>,
    brand: Option<string>,
    deadline: Option<string>,
    markdown: Option<string>,
    category: Option<string>,
    subCategory: Option<string>,
    creator: Option<string>)

  /** The five fields the handler checks before building the document. */
  predicate HasRequiredInfo(f: Form) {
    Truthy(f.title) && Truthy(f.brand) && Truthy(f.deadline) && Truthy(f.markdown) && Truthy(f.category)
  }

  /** The value the unique index on `slug` reads. */
  function SlugOf(p: Posting): string {
    p.slug
  }

  /** The unique index on `slug`. */
  const SLUG_INDEX: Index<Posting> := Index("slug", SlugOf)

  /** No two postings share a slug. */
  predicate UniqueSlugs(c: seq<Doc<Posting>>) {
    UniqueBy(c, SlugOf)
  }

  predicate SlugTaken(c: seq<Doc<Posting>>, slug: string) {
    exists d :: d in c && d.body.slug == slug
  }

  /** The document the handler builds from the form and the image's
      location, once the slug hook has run. */
  function DraftOf(f: Form, location: string, slugify: string -> string): Draft {
    PreValidate(Draft(f.title, f.brand, Some(location), f.markdown, f.deadline, f.creator, f.category, f.subCategory, None), slugify)
  }

  /** A successful create: the collection after the insert and the saved document. */
  datatype Created = Created(store: seq<Doc<Posting>>, saved: Doc<Posting>)

  /** POST /. The upload middleware runs first, then the gate, then the
      handler: the required-info check, the image, the schema, the unique
      indexes. `upload` is what the upload middleware produced. */
  function Create(r: Router, c: seq<Doc<Posting>>, caller: Access.Caller, upload: Result<Option<Stored>>, f: Form,
                  newId: Id, now: int, slugify: string -> string, castDate: string -> Option<int>): (res: Result<Created>)
    ensures upload.Err? ==> res == Err(upload.error)
    ensures upload.Ok? && !MayCall(r.kind, Access.Create, caller) ==> res == Err(Forbidden)
    ensures upload.Ok? && MayCall(r.kind, Access.Create, caller) && !HasRequiredInfo(f) ==>
              res == Err(Rejected(MISSING_INFO))
    ensures upload.Ok? && res == Err(Rejected(MISSING_INFO)) ==> !HasRequiredInfo(f)
    ensures upload.Ok? && MayCall(r.kind, Access.Create, caller) && HasRequiredInfo(f) && upload.value.None? ==>
              res == Err(TypeError("location"))
    ensures upload.Ok? && MayCall(r.kind, Access.Create, caller) && HasRequiredInfo(f) && upload.value.Some? ==>
              var paths := FailingPaths(r.kind, DraftOf(f, upload.value.value.location, slugify), castDate);
              var slug := slugify(SlugSource(f.title.value, f.brand.value));
              && (paths == [] <==> slug != "" && castDate(f.deadline.value).Some? && f.subCategory != Some(""))
              && (paths != [] ==> res == Err(ValidationFailed(paths)))
              && (paths == [] && HasId(c, newId) ==> res == Err(DuplicateKey("_id")))
              && (paths == [] && !HasId(c, newId) && SlugTaken(c, slug) ==> res == Err(DuplicateKey("slug")))
              && (paths == [] && !HasId(c, newId) && !SlugTaken(c, slug) ==> res.Ok?)
    ensures res.Ok? ==>
              && MayCall(r.kind, Access.Create, caller)
              && HasRequiredInfo(f) && upload.Ok? && upload.value.Some?
              && res.value.store == c + [res.value.saved]
              && res.value.saved.id == newId && !HasId(c, newId)
              && res.value.saved.body.title == f.title.value
              && res.value.saved.body.brand == f.brand.value
              && res.value.saved.body.markdown == f.markdown.value
              && res.value.saved.body.category == f.category.value
              && res.value.saved.body.subCategory == f.subCategory.GetOr(DefaultSubCategory(r.kind))
              && Some(res.value.saved.body.deadline) == castDate(f.deadline.value)
              && res.value.saved.body.creator == f.creator
              && res.value.saved.body.brandImage == Some(upload.value.value.location)
              && res.value.saved.body.slug == slugify(SlugSource(f.title.value, f.brand.value))
              && !SlugTaken(c, res.value.saved.body.slug)
              && res.value.saved.body.createdAt == now && res.value.saved.body.updatedAt == now
    ensures res.Ok? && DistinctIds(c) ==> DistinctIds(res.value.store)
    ensures res.Ok? && UniqueSlugs(c) ==> UniqueSlugs(res.value.store)
  {
    if upload.Err? then Err(upload.error)
    else if !MayCall(r.kind, Access.Create, caller) then Err(Forbidden)
    else if !HasRequiredInfo(f) then Err(Rejected(MISSING_INFO))
    else if upload.value.None? then Err(TypeError("location"))
    else
      var draft := DraftOf(f, upload.value.value.location, slugify);
      var checked := Validate(r.kind, draft, castDate, now);
      if checked.Err? then Err(checked.error)
      else if HasId(c, newId) then Err(DuplicateKey("_id"))
      else if SlugTaken(c, checked.value.slug) then Err(DuplicateKey("slug"))
      else
        var saved := Doc(newId, checked.value);
        assert forall d :: d in c ==> d.id != newId && d.body.slug != saved.body.slug;
        Ok(Created(c + [saved], saved))
  }

  /** The slug is unique: once a posting is saved, another create with the
      same title and brand fails on the slug index, whatever its other
      fields, as long as it gets that far. */
  lemma SameTitleAndBrandCollide(r: Router, c: seq<Doc<Posting>>, caller: Access.Caller, upload: Result<Option<Stored>>, f: Form,
                                 newId: Id, now: int, caller2: Access.Caller, stored2: Stored, f2: Form,
                                 newId2: Id, now2: int, slugify: string -> string, castDate: string -> Option<int>)
    requires Create(r, c, caller, upload, f, newId, now, slugify, castDate).Ok?
    requires f2.title == f.title && f2.brand == f.brand
    requires MayCall(r.kind, Access.Create, caller2) && HasRequiredInfo(f2)
    requires FailingPaths(r.kind, DraftOf(f2, stored2.location, slugify), castDate) == []
    requires newId2 != newId && !HasId(c, newId2)
    ensures var c2 := Create(r, c, caller, upload, f, newId, now, slugify, castDate).value.store;
            Create(r, c2, caller2, Ok(Some(stored2)), f2, newId2, now2, slugify, castDate) == Err(DuplicateKey("slug"))
  {
    var c2 := Create(r, c, caller, upload, f, newId, now, slugify, castDate).value.store;
    var saved := Create(r, c, caller, upload, f, newId, now, slugify, castDate).value.saved;
    assert saved in c2;
    assert SlugTaken(c2, saved.body.slug);
    assert !HasId(c2, newId2) by {
      forall d | d in c2 ensures d.id != newId2 {
        if d != saved {
          assert d in c;
        }
      }
    }
  }

  /** A create that gets past the gate with all the required info, but whose
      image the scholarship filter skipped, fails reading the image's location. */
  lemma NonImageIsNotSaved(r: Router, c: seq<Doc<Posting>>, caller: Access.Caller, part: Part, uuid: string, bucketUrl: string,
                           f: Form, newId: Id, now: int, slugify: string -> string, castDate: string -> Option<int>)
    requires r.kind == ScholarshipKind && !AcceptsFile(part.mimeType)
    requires MayCall(r.kind, Access.Create, caller) && HasRequiredInfo(f)
    ensures Create(r, c, caller, SingleUpload(Some(part), uuid, bucketUrl), f, newId, now, slugify, castDate)
            == Err(TypeError("location"))
  {
  }

  /** PUT /:id: the gate, then `findByIdAndUpdate`; the answer is the updated
      posting, or null (`None`) when no posting has the id. An update that
      gives the posting the slug of another one is refused by the unique
      index, and nothing changes. */
  function Update(r: Router, c: seq<Doc<Posting>>, caller: Access.Caller, id: Id, patch: Patch, now: int)
    : (res: Result<(seq<Doc<Posting>>, Option<Posting>)>)
    ensures !MayCall(r.kind, Access.Update, caller) <==> res == Err(Forbidden)
    ensures MayCall(r.kind, Access.Update, caller) && HasId(c, id)
            && Collides(c, id, SlugOf, ApplyPatch(FindById(c, id).value, patch, now)) ==>
              res == Err(DuplicateKey("slug"))
    ensures MayCall(r.kind, Access.Update, caller)
            && !(HasId(c, id) && Collides(c, id, SlugOf, ApplyPatch(FindById(c, id).value, patch, now))) ==>
              res.Ok?
    ensures res.Ok? ==> |res.value.0| == |c|
    ensures res.Ok? ==> forall i :: 0 <= i < |c| && c[i].id != id ==> res.value.0[i] == c[i]
    ensures res.Ok? ==> (res.value.1.None? <==> !HasId(c, id))
    ensures res.Ok? && !HasId(c, id) ==> res.value.0 == c
    ensures res.Ok? && HasId(c, id) ==> res.value.1 == Some(ApplyPatch(FindById(c, id).value, patch, now))
    ensures res.Ok? && DistinctIds(c) ==> FindById(res.value.0, id) == res.value.1
    ensures res.Ok? && DistinctIds(c) && UniqueSlugs(c) ==> UniqueSlugs(res.value.0)
  {
    GuardedUpdate(Access.Route(ResourceOf(r.kind), Access.Update), c, caller, id, p => ApplyPatch(p, patch, now), Some(SLUG_INDEX))
  }

  /** An update that names the slug of another posting is refused. */
  lemma UpdateToTakenSlugRefused(r: Router, c: seq<Doc<Posting>>, caller: Access.Caller, id: Id, patch: Patch, now: int,
                                 other: Doc<Posting>)
    requires MayCall(r.kind, Access.Update, caller) && HasId(c, id)
    requires other in c && other.id != id && patch.slug == Some(other.body.slug)
    ensures Update(r, c, caller, id, patch, now) == Err(DuplicateKey("slug"))
  {
    assert SlugOf(ApplyPatch(FindById(c, id).value, patch, now)) == SlugOf(other.body);
  }

  /** An update that does not name the slug keeps it, even when it renames
      the title or the brand the slug was made from; in a store whose ids
      and slugs are unique such an update is never refused. */
  lemma UpdateKeepsSlug(r: Router, c: seq<Doc<Posting>>, caller: Access.Caller, id: Id, patch: Patch, now: int)
    requires patch.slug.None? && MayCall(r.kind, Access.Update, caller) && HasId(c, id)
    requires DistinctIds(c) && UniqueSlugs(c)
    ensures Update(r, c, caller, id, patch, now).Ok?
    ensures Update(r, c, caller, id, patch, now).value.1.value.slug == FindById(c, id).value.slug
  {
    var found := FindById(c, id).value;
    assert !Collides(c, id, SlugOf, ApplyPatch(found, patch, now)) by {
      forall d | d in c && d.id != id ensures d.body.slug != found.slug {
        var k :| 0 <= k < |c| && c[k] == Doc(id, found);
        var m :| 0 <= m < |c| && c[m] == d;
        assert k != m;
        if k < m { assert SlugOf(c[k].body) != SlugOf(c[m].body); }
        else { assert SlugOf(c[m].body) != SlugOf(c[k].body); }
      }
    }
  }

  /** A successful delete: the collection without the posting, and the key
      of its image in the bucket. */
  datatype Removed = Removed(store: seq<Doc<Posting>>, imageKey: string)

  /** DELETE /:id, up to the removal of the document. The call to the
      storage service and the answer it triggers are not modelled. */
  function Delete(r: Router, c: seq<Doc<Posting>>, caller: Access.Caller, id: Id): (res: Result<Removed>)
    ensures !MayCall(r.kind, Access.Delete, caller) <==> res == Err(Forbidden)
    ensures MayCall(r.kind, Access.Delete, caller) && !HasId(c, id) ==>
              res == Err(Rejected(NotFoundMessage(r.kind)))
    ensures MayCall(r.kind, Access.Delete, caller) && HasId(c, id) && FindById(c, id).value.brandImage.None? ==>
              res == Err(TypeError("split"))
    ensures MayCall(r.kind, Access.Delete, caller) && HasId(c, id) && FindById(c, id).value.brandImage.Some? ==> res.Ok?
    ensures res.Ok? ==>
              && HasId(c, id)
              && res.value.store == RemoveById(c, id)
              && res.value.imageKey == KeyOfLocation(FindById(c, id).value.brandImage.value)
    ensures res.Ok? && DistinctIds(c) ==> |res.value.store| == |c| - 1 && !HasId(res.value.store, id)
  {
    if !MayCall(r.kind, Access.Delete, caller) then Err(Forbidden)
    else
      match FindById(c, id)
      case None => Err(Rejected(NotFoundMessage(r.kind)))
      case Some(p) =>
        if p.brandImage.None? then Err(TypeError("split"))
        else
          var key := KeyOfLocation(p.brandImage.value);
          if DistinctIds(c) then RemoveByIdDropsOne(c, id); Ok(Removed(RemoveById(c, id), key))
          else Ok(Removed(RemoveById(c, id), key))
  }
}

=== FILE: postings.dfy ===
/** The Job and Scholarship schemas. The two declare the same fields and
    the same pre-validate hook; they differ only in the default category
    and sub-category ids, so one datatype serves both, told apart by `Kind`.

    `slugify` and the string-to-Date cast belong to libraries outside this
    model and are parameters. */
module Postings {
  import opened Outcomes
  import opened JsText
  import opened Store

  datatype Kind = JobKind | ScholarshipKind

  /** A saved job or scholarship. Dates are milliseconds since the epoch. */
  datatype Posting = Posting(
    title: string,
    brand: string,
    brandImage: Option<string>,
    markdown: string,
    createdAt: int,
    updatedAt: int,
    slug: string,
    deadline: int,
    creator: Option<Id>,
    category: Id,
    subCategory: string)

  /** The schema default of `category`. */
  function DefaultCategory(k: Kind): Id {
    match k
    case JobKind => "60cddc4c181fa53764a17297"
    case ScholarshipKind => "60cddc0f181fa53764a17295"
  }

  /** The schema default of `sub_category`. */
  function DefaultSubCategory(k: Kind): string {
    match k
    case JobKind => "60cde50716f3e4305c6e8984"
    case ScholarshipKind => "60cde40d16f3e4305c6e897e"
  }

  /** A document before validation: the values handed to the constructor,
      `None` for `undefined`. The deadline is still the request's text. */
  datatype Draft = Draft(
    title: Option<string>,
    brand: Option<string>,
    brandImage: Option<string>,
    markdown: Option<string>,
    deadline: Option<string>,
    creator: Option<Id>,
    category: Option<Id>,
    subCategory: Option<string>,
    slug: Option<string>)

  /** The text a posting's slug is made from. */
  function SlugSource(title: string, brand: string): string {
    title + " at " + brand
  }

  /** The pre-validate hook: with both a title and a brand, the slug is
      derived from them; otherwise the slug is left as it was. */
  function PreValidate(d: Draft, slugify: string -> string): (r: Draft)
    ensures Truthy(d.title) && Truthy(d.brand) ==> r.slug == Some(slugify(SlugSource(d.title.value, d.brand.value)))
    ensures !(Truthy(d.title) && Truthy(d.brand)) ==> r.slug == d.slug
    ensures r == d.(slug := r.slug)
  {
    if Truthy(d.title) && Truthy(d.brand) then d.(slug := Some(slugify(SlugSource(d.title.value, d.brand.value))))
    else d
  }

  /** The value a path has once the schema default is applied. */
  function SubCategoryOf(k: Kind, d: Draft): Option<string> {
    if d.subCategory.None? then Some(DefaultSubCategory(k)) else d.subCategory
  }

  /** The required paths that fail, in schema order. A required string
      fails when absent or empty; `deadline` fails when absent or not a date. */
  function FailingPaths(k: Kind, d: Draft, castDate: string -> Option<int>): seq<string> {
    (if Truthy(d.title) then [] else ["title"])
    + (if Truthy(d.brand) then [] else ["brand"])
    + (if Truthy(d.markdown) then [] else ["markdown"])
    + (if Truthy(d.slug) then [] else ["slug"])
    + (if d.deadline.Some? && castDate(d.deadline.value).Some? then [] else ["deadline"])
    + (if Truthy(SubCategoryOf(k, d)) then [] else ["sub_category"])
  }

  /** `validate()`: the posting the draft describes, with defaults applied and
      both timestamps set to `now`, or the failing required paths. */
  function Validate(k: Kind, d: Draft, castDate: string -> Option<int>, now: int): (r: Result<Posting>)
    ensures r.Err? <==> FailingPaths(k, d, castDate) != []
    ensures r.Err? ==> r.error == ValidationFailed(FailingPaths(k, d, castDate))
    ensures r.Ok? ==>
              && Truthy(d.title) && r.value.title == d.title.value
              && Truthy(d.brand) && r.value.brand == d.brand.value
              && Truthy(d.markdown) && r.value.markdown == d.markdown.value
              && Truthy(d.slug) && r.value.slug == d.slug.value
              && d.deadline.Some? && Some(r.value.deadline) == castDate(d.deadline.value)
              && r.value.brandImage == d.brandImage
              && r.value.creator == d.creator
              && r.value.category == d.category.GetOr(DefaultCategory(k))
              && r.value.subCategory == d.subCategory.GetOr(DefaultSubCategory(k))
              && r.value.subCategory != ""
              && r.value.createdAt == now && r.value.updatedAt == now
  {
    var failing := FailingPaths(k, d, castDate);
    if failing != [] then Err(ValidationFailed(failing))
    else
      Ok(Posting(
        title := d.title.value,
        brand := d.brand.value,
        brandImage := d.brandImage,
        markdown := d.markdown.value,
        createdAt := now,
        updatedAt := now,
        slug := d.slug.value,
        deadline := castDate(d.deadline.value).value,
        creator := d.creator,
        category := d.category.GetOr(DefaultCategory(k)),
        subCategory := SubCategoryOf(k, d).value))
  }

  /** Without a title or a brand the hook sets no slug, and the required
      slug then fails validation. */
  lemma SlugNeedsTitleAndBrand(k: Kind, d: Draft, slugify: string -> string, castDate: string -> Option<int>, now: int)
    requires !(Truthy(d.title) && Truthy(d.brand)) && d.slug.None?
    ensures var r := Validate(k, PreValidate(d, slugify), castDate, now);
            r.Err? && "slug" in r.error.paths
  {
    var p := PreValidate(d, slugify);
    var failing := FailingPaths(k, p, castDate);
    var front := (if Truthy(p.title) then [] else ["title"])
                 + (if Truthy(p.brand) then [] else ["brand"])
                 + (if Truthy(p.markdown) then [] else ["markdown"]);
    assert failing[|front|] == "slug";
  }

  /** The fields a `PUT` body may carry; `None` leaves a field as it is. */
  datatype Patch = Patch(
    title: Option<string>,
    brand: Option<string>,
    brandImage: Option<string>,
    markdown: Option<string>,
    deadline: Option<int>,
    creator: Option<Id>,
    category: Option<Id>,
    subCategory: Option<string>,
    slug: Option<string>)

  /** `findByIdAndUpdate(id, body)`: the given fields replace the stored ones
      and the timestamps plugin sets `updatedAt`. No hook runs, so the slug
      changes only when the body names it. */
  function ApplyPatch(p: Posting, patch: Patch, now: int): (r: Posting)
    ensures r.slug == patch.slug.GetOr(p.slug)
    ensures r.title == patch.title.GetOr(p.title) && r.brand == patch.brand.GetOr(p.brand)
    ensures r.markdown == patch.markdown.GetOr(p.markdown) && r.deadline == patch.deadline.GetOr(p.deadline)
    ensures r.category == patch.category.GetOr(p.category) && r.subCategory == patch.subCategory.GetOr(p.subCategory)
    ensures r.brandImage == (if patch.brandImage.Some? then patch.brandImage else p.brandImage)
    ensures r.creator == (if patch.creator.Some? then patch.creator else p.creator)
    ensures r.createdAt == p.createdAt && r.updatedAt == now
  {
    Posting(
      title := patch.title.GetOr(p.title),
      brand := patch.brand.GetOr(p.brand),
      brandImage := if patch.brandImage.Some? then patch.brandImage else p.brandImage,
      markdown := patch.markdown.GetOr(p.markdown),
      createdAt := p.createdAt,
      updatedAt := now,
      slug := patch.slug.GetOr(p.slug),
      deadline := patch.deadline.GetOr(p.deadline),
      creator := if patch.creator.Some? then patch.creator else p.creator,
      category := patch.category.GetOr(p.category),
      subCategory := patch.subCategory.GetOr(p.subCategory))
  }

  /** An empty body. */
  const NO_CHANGE: Patch := Patch(None, None, None, None, None, None, None, None, None)

  /** An empty body changes nothing but `updatedAt`. */
  lemma EmptyPatchTouchesOnlyUpdatedAt(p: Posting, now: int)
    ensures ApplyPatch(p, NO_CHANGE, now) == p.(updatedAt := now)
  {
  }

  /** Sending the same body twice leaves what the first one left, up to `updatedAt`. */
  lemma ApplyPatchIdempotent(p: Posting, patch: Patch, now: int, later: int)
    ensures ApplyPatch(ApplyPatch(p, patch, now), patch, later) == ApplyPatch(p, patch, later)
  {
  }
}

=== FILE: store.dfy ===
/** The document store, as the route handlers see it.

    A collection is the sequence of its documents in natural (insertion)
    order, each under a distinct id. A query `find(filter).sort(key)` with
    `skip`/`limit` options is `Where`, then `SortDesc`/`SortAsc`, then
    `Window`: the store applies the sort before skipping and limiting,
    whatever order the options are written in. */
module Store {
  import opened Outcomes

  /** An ObjectId, kept as its hexadecimal text. */
  type Id = string

  datatype Doc<T> = Doc(id: Id, body: T)

  predicate HasId<T(==,!new)>(c: seq<Doc<T>>, id: Id) {
    exists d :: d in c && d.id == id
  }

  /** The store's primary-key invariant: no id occurs twice. */
  predicate DistinctIds<T>(c: seq<Doc<T>>) {
    forall i, j :: 0 <= i < j < |c| ==> c[i].id != c[j].id
  }

  /** `findById(id)`: the document under `id`, if any. */
  function FindById<T(==,!new)>(c: seq<Doc<T>>, id: Id): (r: Option<T>)
    ensures r.None? <==> !HasId(c, id)
    ensures r.Some? ==> Doc(id, r.value) in c
  {
    if c == [] then None
    else if c[0].id == id then Some(c[0].body)
    else
      assert forall d :: d in c ==> d == c[0] || d in c[1..];
      FindById(c[1..], id)
  }

  /** `doc.remove()`: every document except the one under `id`, in the same order. */
  function RemoveById<T(==,!new)>(c: seq<Doc<T>>, id: Id): (r: seq<Doc<T>>)
    ensures forall d :: d in r <==> d in c && d.id != id
    ensures |r| <= |c|
    ensures !HasId(c, id) ==> r == c
  {
    if c == [] then []
    else
      assert forall d :: d in c ==> d == c[0] || d in c[1..];
      if c[0].id == id then RemoveById(c[1..], id) else [c[0]] + RemoveById(c[1..], id)
  }

  /** The tail of a store with distinct ids has distinct ids, none of them the head's. */
  lemma DistinctTail<T>(c: seq<Doc<T>>)
    requires c != [] && DistinctIds(c)
    ensures DistinctIds(c[1..])
    ensures forall d :: d in c[1..] ==> d.id != c[0].id
  {
    forall i, j | 0 <= i < j < |c[1..]| ensures c[1..][i].id != c[1..][j].id {
      assert c[1..][i] == c[i + 1] && c[1..][j] == c[j + 1];
    }
    forall d | d in c[1..] ensures d.id != c[0].id {
      var k :| 0 <= k < |c[1..]| && c[1..][k] == d;
      assert c[k + 1] == d;
    }
  }

  /** A document in front of a store with distinct ids none of which is its own. */
  lemma DistinctCons<T>(x: Doc<T>, t: seq<Doc<T>>)
    requires DistinctIds(t) && forall d :: d in t ==> d.id != x.id
    ensures DistinctIds([x] + t)
  {
    var r := [x] + t;
    forall i, j | 0 <= i < j < |r| ensures r[i].id != r[j].id {
      if i == 0 {
        assert r[j] == t[j - 1];
      } else {
        assert r[i] == t[i - 1] && r[j] == t[j - 1];
      }
    }
  }

  /** Removing a present id from a store with distinct ids drops exactly one document. */
  lemma RemoveByIdDropsOne<T(!new)>(c: seq<Doc<T>>, id: Id)
    requires DistinctIds(c) && HasId(c, id)
    ensures |RemoveById(c, id)| == |c| - 1
    ensures DistinctIds(RemoveById(c, id))
    ensures !HasId(RemoveById(c, id), id)
  {
    RemoveByIdLength(c, id);
    RemoveByIdKeepsDistinct(c, id);
    var r := RemoveById(c, id);
    assert !HasId(r, id) by {
      forall d | d in r ensures d.id != id {
      }
    }
  }

  /** The count half of `RemoveByIdDropsOne`, by induction on the store. */
  lemma {:induction false} RemoveByIdLength<T(!new)>(c: seq<Doc<T>>, id: Id)
    requires DistinctIds(c) && HasId(c, id)
    ensures |RemoveById(c, id)| == |c| - 1
  {
    DistinctTail(c);
    if c[0].id == id {
      assert !HasId(c[1..], id);
      assert RemoveById(c, id) == RemoveById(c[1..], id) == c[1..];
    } else {
      assert HasId(c[1..], id) by {
        var d :| d in c && d.id == id;
        assert c == [c[0]] + c[1..];
        assert d != c[0];
      }
      RemoveByIdLength(c[1..], id);
      assert RemoveById(c, id) == [c[0]] + RemoveById(c[1..], id);
    }
  }

  /** Removal keeps the ids of the remaining documents distinct. */
  lemma {:induction false} RemoveByIdKeepsDistinct<T(!new)>(c: seq<Doc<T>>, id: Id)
    requires DistinctIds(c)
    ensures DistinctIds(RemoveById(c, id))
  {
    if c != [] {
      DistinctTail(c);
      RemoveByIdKeepsDistinct(c[1..], id);
      if c[0].id != id {
        DistinctCons(c[0], RemoveById(c[1..], id));
      }
    }
  }

  /** `findByIdAndUpdate(id, patch)`: the document under `id` rewritten by `patch`. */
  function UpdateById<T(==,!new)>(c: seq<Doc<T>>, id: Id, patch: T -> T): (r: seq<Doc<T>>)
    ensures |r| == |c|
    ensures forall i :: 0 <= i < |c| ==> r[i].id == c[i].id
    ensures forall i :: 0 <= i < |c| && c[i].id != id ==> r[i] == c[i]
    ensures forall i :: 0 <= i < |c| && c[i].id == id ==> r[i].body == patch(c[i].body)
    ensures !HasId(c, id) ==> r == c
  {
    if c == [] || !HasId(c, id) then c
    else
      var d := if c[0].id == id then Doc(id, patch(c[0].body)) else c[0];
      var t := UpdateById(c[1..], id, patch);
      var r := [d] + t;
      assert forall i :: 0 < i < |c| ==> r[i] == t[i - 1] && c[i] == c[1..][i - 1];
      r
  }

  /** `findByIdAndUpdate(id, body, { new: true })`: the collection after the
      update, and the updated document, or None when no document has the id. */
  function FindByIdAndUpdate<T(==,!new)>(c: seq<Doc<T>>, id: Id, patch: T -> T): (r: (seq<Doc<T>>, Option<T>))
    ensures r.0 == UpdateById(c, id, patch)
    ensures r.1.None? <==> !HasId(c, id)
    ensures r.1.Some? ==> r.1.value == patch(FindById(c, id).value) && Doc(id, r.1.value) in r.0
  {
    var c' := UpdateById(c, id, patch);
    match FindById(c, id)
    case None => (c', None)
    case Some(found) =>
      var k :| 0 <= k < |c| && c[k] == Doc(id, found);
      assert c'[k] == Doc(id, patch(found));
      (c', Some(patch(found)))
  }

  /** With distinct ids, a document in the store is the one `findById` finds. */
  lemma FindByIdOfMember<T(!new)>(c: seq<Doc<T>>, id: Id, v: T)
    requires DistinctIds(c) && Doc(id, v) in c
    ensures FindById(c, id) == Some(v)
  {
    var w := FindById(c, id).value;
    var k :| 0 <= k < |c| && c[k] == Doc(id, v);
    var m :| 0 <= m < |c| && c[m] == Doc(id, w);
    assert k == m;
  }

  /** A unique index: the path it is declared on, and the value it reads
      from a document. */
  datatype Index<-T> = Index(path: string, key: T -> string)

  /** No two documents share a value of `key`. */
  predicate UniqueBy<T>(c: seq<Doc<T>>, key: T -> string) {
    forall i, j :: 0 <= i < j < |c| ==> key(c[i].body) != key(c[j].body)
  }

  /** A document other than the one under `id` already holds `v`'s value of `key`. */
  predicate Collides<T(==,!new)>(c: seq<Doc<T>>, id: Id, key: T -> string, v: T) {
    exists d :: d in c && d.id != id && key(d.body) == key(v)
  }

  /** An update whose result collides with no other document keeps the
      index unique, and the store then finds the updated document under the id. */
  lemma UpdateKeepsUnique<T(!new)>(c: seq<Doc<T>>, id: Id, patch: T -> T, key: T -> string)
    requires DistinctIds(c) && UniqueBy(c, key) && HasId(c, id)
    requires !Collides(c, id, key, patch(FindById(c, id).value))
    ensures UniqueBy(UpdateById(c, id, patch), key)
  {
    var v := FindById(c, id).value;
    var r := UpdateById(c, id, patch);
    forall i, j | 0 <= i < j < |r| ensures key(r[i].body) != key(r[j].body) {
      if c[i].id == id {
        FindByIdOfMember(c, id, c[i].body);
        assert c[j] in c && c[j].id != id;
      } else if c[j].id == id {
        FindByIdOfMember(c, id, c[j].body);
        assert c[i] in c && c[i].id != id;
      }
    }
  }

  /** `find(filter)`: the elements that satisfy `p`, in their original order. */
  function Where<E(==,!new)>(s: seq<E>, p: E -> bool): (r: seq<E>)
    ensures forall x :: x in r <==> x in s && p(x)
    ensures |r| <= |s|
  {
    if s == [] then []
    else
      assert forall x :: x in s ==> x == s[0] || x in s[1..];
      if p(s[0]) then [s[0]] + Where(s[1..], p) else Where(s[1..], p)
  }

  /** A filter and its complement split a collection: every element lands in exactly one side. */
  lemma {:induction false} WherePartition<E(!new)>(s: seq<E>, p: E -> bool, q: E -> bool)
    requires forall x :: q(x) == !p(x)
    ensures multiset(Where(s, p)) + multiset(Where(s, q)) == multiset(s)
  {
    if s != [] {
      WherePartition(s[1..], p, q);
      WhereStep(s, p);
      WhereStep(s, q);
      assert s == [s[0]] + s[1..];
      assert multiset(s) == multiset{s[0]} + multiset(s[1..]);
      assert q(s[0]) == !p(s[0]);
    }
  }

  /** The filter takes the head or leaves it, then filters the tail. */
  lemma WhereStep<E(!new)>(s: seq<E>, p: E -> bool)
    requires s != []
    ensures multiset(Where(s, p)) == (if p(s[0]) then multiset{s[0]} else multiset{}) + multiset(Where(s[1..], p))
  {
    if p(s[0]) {
      assert Where(s, p) == [s[0]] + Where(s[1..], p);
    }
  }

  /** The elements of `s` are in non-increasing order of `key`. */
  predicate SortedDesc<E>(s: seq<E>, key: E -> int) {
    forall i, j :: 0 <= i < j < |s| ==> key(s[i]) >= key(s[j])
  }

  /** The elements of `s` are in non-decreasing order of `key`. */
  predicate SortedAsc<E>(s: seq<E>, key: E -> int) {
    forall i, j :: 0 <= i < j < |s| ==> key(s[i]) <= key(s[j])
  }

  /** Inserts `x` into a descending sequence, in front of the first element
      whose key does not exceed its own. */
  function InsertDesc<E(==,!new)>(x: E, s: seq<E>, key: E -> int): (r: seq<E>)
    requires SortedDesc(s, key)
    ensures SortedDesc(r, key)
    ensures multiset(r) == multiset(s) + multiset{x}
    ensures forall y :: y in r ==> y == x || y in s
  {
    if s == [] || key(x) >= key(s[0]) then [x] + s
    else
      var t := InsertDesc(x, s[1..], key);
      ConsKeepsSortedDesc(s, x, t, key);
      assert s == [s[0]] + s[1..];
      [s[0]] + t
  }

  /** The head of a descending sequence, in front of the tail with a
      smaller-keyed element inserted, still heads a descending sequence. */
  lemma ConsKeepsSortedDesc<E>(s: seq<E>, x: E, t: seq<E>, key: E -> int)
    requires s != [] && SortedDesc(s, key) && SortedDesc(t, key) && key(x) < key(s[0])
    requires forall y :: y in t ==> y == x || y in s[1..]
    ensures SortedDesc([s[0]] + t, key)
  {
    forall k | 0 <= k < |t| ensures key(s[0]) >= key(t[k]) {
      assert t[k] in t;
      if t[k] != x {
        var m :| 0 <= m < |s[1..]| && s[1..][m] == t[k];
        assert s[m + 1] == t[k];
      }
    }
    var r := [s[0]] + t;
    forall i, j | 0 <= i < j < |r| ensures key(r[i]) >= key(r[j]) {
      assert r[j] == t[j - 1];
      if i > 0 {
        assert r[i] == t[i - 1];
      }
    }
  }

  /** `.sort({ key: -1 })`: the same elements, newest (largest key) first.
      Equal keys keep their store order. */
  function SortDesc<E(==,!new)>(s: seq<E>, key: E -> int): (r: seq<E>)
    ensures SortedDesc(r, key)
    ensures multiset(r) == multiset(s)
  {
    if s == [] then []
    else
      assert s == [s[0]] + s[1..];
      InsertDesc(s[0], SortDesc(s[1..], key), key)
  }

  /** `.sort({ key: 1 })`: the same elements, oldest (smallest key) first. */
  function SortAsc<E(==,!new)>(s: seq<E>, key: E -> int): (r: seq<E>)
    ensures SortedAsc(r, key)
    ensures multiset(r) == multiset(s)
  {
    var r := SortDesc(s, x => -key(x));
    assert forall i, j :: 0 <= i < j < |r| ==> -key(r[i]) >= -key(r[j]);
    r
  }

  /** Sorting on a key every element shares (a field no document has) keeps store order. */
  lemma {:induction false} SortDescConstantKey<E(!new)>(s: seq<E>, key: E -> int, k: int)
    requires forall i :: 0 <= i < |s| ==> key(s[i]) == k
    ensures SortDesc(s, key) == s
  {
    if s != [] {
      SortDescConstantKey(s[1..], key, k);
      assert s == [s[0]] + s[1..];
    }
  }

  /** `skip`/`limit`: at most `limit` elements, starting at position `skip`. */
  function Window<E>(s: seq<E>, skip: nat, limit: nat): (r: seq<E>)
    ensures |r| == if skip >= |s| then 0 else if |s| - skip < limit then |s| - skip else limit
    ensures forall i :: 0 <= i < |r| ==> r[i] == s[skip + i]
    ensures forall x :: x in r ==> x in s
  {
    var lo := if skip < |s| then skip else |s|;
    var hi := if skip + limit < |s| then skip + limit else |s|;
    s[lo..hi]
  }

  /** A window of a descending sequence is descending. */
  lemma WindowKeepsSortedDesc<E>(s: seq<E>, skip: nat, limit: nat, key: E -> int)
    requires SortedDesc(s, key)
    ensures SortedDesc(Window(s, skip, limit), key)
  {
    var r := Window(s, skip, limit);
    forall i, j | 0 <= i < j < |r| ensures key(r[i]) >= key(r[j]) {
      assert r[i] == s[skip + i] && r[j] == s[skip + j];
    }
  }
}

=== FILE: upload.dfy ===
/** The scholarship image upload middleware: which files it stores, under
    which name, and the size limit it enforces; plus the reverse step the
    delete handlers take, from a stored file's location back to its key.

    The storage service is not part of this model: storing a file under
    `key` is assumed to report the location `bucketUrl + "/" + key`, and
    the uuid is a parameter. */
module Upload {
  import opened Outcomes
  import opened JsText

  /** The MIME types the file filter lets through. */
  const ALLOWED_MIME_TYPES: seq<string> := ["image/jpeg", "image/jpg", "image/png"]

  /** `limits.fileSize`, in bytes. */
  const MAX_FILE_SIZE: nat := 1_000_000

  /** A file part of a multipart request. */
  datatype Part = Part(originalName: string, mimeType: string, size: nat)

  /** A stored file, as `req.file` describes it to the handler. */
  datatype Stored = Stored(key: string, location: string)

  /** `fileFilter`: `callback(null, true)` for an allowed type and
      `callback(null, false)` otherwise; its error argument is always null. */
  predicate AcceptsFile(mimeType: string) {
    mimeType in ALLOWED_MIME_TYPES
  }

  /** `file.originalname.toLowerCase().split(' ').join('-')`. */
  function NormalisedName(name: string): (r: string)
    ensures |r| == |name|
    ensures forall i :: 0 <= i < |name| ==> r[i] == if name[i] == ' ' then '-' else LowerChar(name[i])
    ensures ' ' !in r
    ensures forall i :: 0 <= i < |r| ==> !IsUpper(r[i])
  {
    var lower := ToLowerCase(name);
    JoinSplitReplaces(lower, ' ', '-');
    Join(Split(lower, ' '), "-")
  }

  /** The characters of a version-4 uuid's text form. */
  predicate UuidText(u: string) {
    forall i :: 0 <= i < |u| ==> u[i] in "0123456789abcdef-"
  }

  /** `uuidv4() + '-' + fileName`: the S3 `key` callback and the disk
      `filename` callback build the stored name by this one rule. */
  function StoredName(uuid: string, name: string): (r: string)
    ensures |r| == |uuid| + 1 + |name|
    ensures r[..|uuid| + 1] == uuid + "-"
    ensures forall i :: 0 <= i < |name| ==> r[|uuid| + 1 + i] == NormalisedName(name)[i]
    ensures UuidText(uuid) ==> ' ' !in r && forall i :: 0 <= i < |r| ==> !IsUpper(r[i])
  {
    var n := NormalisedName(name);
    var r := uuid + "-" + n;
    assert forall i :: 0 <= i < |uuid| ==> r[i] == uuid[i];
    assert r[|uuid|] == '-';
    assert forall i :: 0 <= i < |n| ==> r[|uuid| + 1 + i] == n[i];
    NoSpaceNoUpper(uuid, n);
    r
  }

  /** A uuid's text, a hyphen and a normalised name hold no space and no
      upper-case letter. */
  lemma NoSpaceNoUpper(uuid: string, n: string)
    requires ' ' !in n && forall i :: 0 <= i < |n| ==> !IsUpper(n[i])
    ensures UuidText(uuid) ==> ' ' !in uuid + "-" + n && forall i :: 0 <= i < |uuid + "-" + n| ==> !IsUpper((uuid + "-" + n)[i])
  {
    var r := uuid + "-" + n;
    if UuidText(uuid) {
      forall i | 0 <= i < |r| ensures r[i] != ' ' && !IsUpper(r[i]) {
        if i < |uuid| {
          assert r[i] == uuid[i];
        } else if i > |uuid| {
          assert r[i] == n[i - |uuid| - 1];
        }
      }
    }
  }

  /** What `upload.single(field)` leaves in `req.file`: nothing when no file
      was sent or the filter skipped it, the stored file otherwise; a file
      over the size limit is an error that stops the request. */
  function SingleUpload(part: Option<Part>, uuid: string, bucketUrl: string): (r: Result<Option<Stored>>)
    ensures r.Err? <==> part.Some? && AcceptsFile(part.value.mimeType) && part.value.size > MAX_FILE_SIZE
    ensures r.Err? ==> r.error == FileTooLarge
    ensures r.Ok? && r.value.Some? <==> part.Some? && AcceptsFile(part.value.mimeType) && part.value.size <= MAX_FILE_SIZE
    ensures r.Ok? && r.value.Some? ==>
              && r.value.value.key == StoredName(uuid, part.value.originalName)
              && r.value.value.location == bucketUrl + "/" + r.value.value.key
  {
    match part
    case None => Ok(None)
    case Some(p) =>
      if !AcceptsFile(p.mimeType) then Ok(None)
      else if p.size > MAX_FILE_SIZE then Err(FileTooLarge)
      else
        var key := StoredName(uuid, p.originalName);
        Ok(Some(Stored(key, bucketUrl + "/" + key)))
  }

  /** `brand_image.split('/').pop()`: the object key the delete handlers derive from a location. */
  function KeyOfLocation(location: string): (key: string)
    ensures '/' !in key
  {
    Last(Split(location, '/'))
  }

  /** The delete handlers find the key the upload stored the image under,
      as long as neither the uuid nor the original file name holds a '/'. */
  lemma KeyOfLocationRecoversStoredName(part: Part, uuid: string, bucketUrl: string)
    requires UuidText(uuid) && '/' !in part.originalName
    requires AcceptsFile(part.mimeType) && part.size <= MAX_FILE_SIZE
    ensures var stored := SingleUpload(Some(part), uuid, bucketUrl).value.value;
            KeyOfLocation(stored.location) == stored.key
  {
    var key := StoredName(uuid, part.originalName);
    forall i | 0 <= i < |key| ensures key[i] != '/' {
      if i > |uuid| {
        assert part.originalName[i - |uuid| - 1] != '/';
      } else {
        assert key[i] == (uuid + "-")[i];
      }
    }
    LastPieceAfterSeparator(bucketUrl, key, '/');
    assert bucketUrl + "/" + key == bucketUrl + ['/'] + key;
  }
}

=== FILE: users.dfy ===
/** The `/api/users` handlers. The User schema is not part of this model:
    a user is reduced to the fields the handlers and the gates use, with
    the unique index on `email` that the store enforces. Every route but
    the list is for an Admin. */
module Users {
  import opened Outcomes
  import opened Store
  import opened Handlers
  import Access

  datatype User = User(email: string, role: string, dateRegistered: int)

  /** The sort key `date_registered`. */
  function DateRegistered(d: Doc<User>): int {
    d.body.dateRegistered
  }

  /** GET /, open to anyone: every user, most recently registered first. */
  function ListAll(c: seq<Doc<User>>): (docs: seq<Doc<User>>)
    ensures multiset(docs) == multiset(c)
    ensures SortedDesc(docs, DateRegistered)
  {
    SortDesc(c, DateRegistered)
  }

  /** GET /:id, for an Admin. */
  function GetOne(c: seq<Doc<User>>, caller: Access.Caller, id: Id): (res: Result<Option<User>>)
    ensures res.Err? <==> caller != Access.SignedIn("Admin")
    ensures res.Ok? ==> (res.value.None? <==> !HasId(c, id))
    ensures res.Ok? && res.value.Some? ==> Doc(id, res.value.value) in c
  {
    Access.AdminGate(Access.Route(Access.Users, Access.GetOne), caller);
    GuardedFind(Access.Route(Access.Users, Access.GetOne), c, caller, id)
  }

  /** The value the unique index on `email` reads. */
  function EmailOf(u: User): string {
    u.email
  }

  /** The unique index on `email`. */
  const EMAIL_INDEX: Index<User> := Index("email", EmailOf)

  /** No two users share an email. */
  predicate UniqueEmails(c: seq<Doc<User>>) {
    UniqueBy(c, EmailOf)
  }

  /** PUT /:id, for an Admin. An update that gives the user the email of
      another one is refused by the unique index, and nothing changes. */
  function Update(c: seq<Doc<User>>, caller: Access.Caller, id: Id, patch: User -> User)
    : (res: Result<(seq<Doc<User>>, Option<User>)>)
    ensures caller != Access.SignedIn("Admin") <==> res == Err(Forbidden)
    ensures caller == Access.SignedIn("Admin") && HasId(c, id) && Collides(c, id, EmailOf, patch(FindById(c, id).value)) ==>
              res == Err(DuplicateKey("email"))
    ensures caller == Access.SignedIn("Admin") && !(HasId(c, id) && Collides(c, id, EmailOf, patch(FindById(c, id).value))) ==>
              res.Ok?
    ensures res.Ok? ==> (res.value.1.None? <==> !HasId(c, id))
    ensures res.Ok? && !HasId(c, id) ==> res.value.0 == c
    ensures res.Ok? && HasId(c, id) ==> res.value.1 == Some(patch(FindById(c, id).value))
    ensures res.Ok? ==> |res.value.0| == |c| && forall i :: 0 <= i < |c| && c[i].id != id ==> res.value.0[i] == c[i]
    ensures res.Ok? && DistinctIds(c) ==> FindById(res.value.0, id) == res.value.1
    ensures res.Ok? && DistinctIds(c) && UniqueEmails(c) ==> UniqueEmails(res.value.0)
  {
    Access.AdminGate(Access.Route(Access.Users, Access.Update), caller);
    GuardedUpdate(Access.Route(Access.Users, Access.Update), c, caller, id, patch, Some(EMAIL_INDEX))
  }

  /** An update that gives a user the email another user holds is refused. */
  lemma UpdateToTakenEmailRefused(c: seq<Doc<User>>, id: Id, patch: User -> User, other: Doc<User>)
    requires HasId(c, id) && other in c && other.id != id
    requires patch(FindById(c, id).value).email == other.body.email
    ensures Update(c, Access.SignedIn("Admin"), id, patch) == Err(DuplicateKey("email"))
  {
    assert Collides(c, id, EmailOf, patch(FindById(c, id).value));
  }

  const NOT_FOUND: string := "User is not found!"
  const DELETED: string := "Deleted successfully!"

  /** DELETE /:id, for an Admin: the user under the id is removed and the
      answer is "Deleted successfully!". */
  function Delete(c: seq<Doc<User>>, caller: Access.Caller, id: Id): (res: Result<Deleted<User>>)
    ensures caller != Access.SignedIn("Admin") <==> res == Err(Forbidden)
    ensures caller == Access.SignedIn("Admin") && !HasId(c, id) <==> res == Err(Rejected(NOT_FOUND))
    ensures caller == Access.SignedIn("Admin") && HasId(c, id) ==> res.Ok?
    ensures res.Ok? ==> res.value.reply == Some(DELETED)
    ensures res.Ok? ==> forall d :: d in res.value.store <==> d in c && d.id != id
    ensures res.Ok? && DistinctIds(c) ==> |res.value.store| == |c| - 1 && DistinctIds(res.value.store)
  {
    Access.AdminGate(Access.Route(Access.Users, Access.Delete), caller);
    GuardedDelete(Access.Route(Access.Users, Access.Delete), c, caller, id, NOT_FOUND, Some(DELETED))
  }
}
